=== FILE: README.md ===
# BezShuma publishing pipeline in Dafny

BezShuma is a Telegram bot that reads RSS feeds and rewrites each new entry
with a language model. It queues the result as a post of a channel and
publishes the queue one post at a time. This project models the sequential
logic of that pipeline as pure Dafny functions and methods over immutable
records, and proves properties of it:

- the feed check: entries walked oldest first, the media and duplicate
  filters, the placement rule, the `last_guid` update and per-source error
  isolation;
- the publishing tick: the `pending` → `moderation` / `published` / `failed`
  transition of one post;
- post-text shaping: model choice, the finishing of the model's answer, the
  topic emojis, the Cyrillic check with at most two re-translations, and the
  fallback post;
- the database URL normalisation and the `ADMIN_IDS` list;
- the store-level part of the operator's commands: the one-off fetch, manual
  publication, approval, rejection, clearing a queue, the typed feed URL, and
  the callback data carrying a model or an interval.

The post store is a sequence of `Post` records in insertion order. Times are
whole seconds, and a `None` time stands for a NULL column. Every collaborator
is a parameter. This covers the feed reader, the duplicate check, the
pending-post query, the publisher (an optional message id), the language
model, the translator, the Markdown converter, the HTML sanitiser and the
draw of `random.choice`. The clock is the parameter `now`. The calls to the
language model and the translator carry their number within the processing
of an entry, so a repeated call is a new request that may answer
differently.

Files:

| file | contents |
|---|---|
| `wrappers.dfy` | `Option` and `Result` |
| `text.dfy` | the Python string operations used: `strip`, `split`, `join`, `replace`, `lower`, `isspace`, `startswith`, substring search |
| `numbers.dfy` | Python's `int()` on a string, and `str()` of an integer |
| `models.dfy` | channels, sources, entries, posts and the row lookups |
| `queue.dfy` | the placement rule, status updates, and the queue invariant |
| `settings.dfy` | `_normalize_database_url` and `ADMIN_IDS` |
| `ai_processor.dfy` | `process_content` and its helpers |
| `scheduler.dfy` | `check_rss_sources` and `publish_scheduled_posts` |
| `handlers.dfy` | the operator commands listed above |

The queue invariant (`Queue.QueueInvariant`) has three parts:

- post ids are distinct;
- every post has a time;
- within a channel, times never decrease in creation order.

Every operation that writes posts keeps it when every channel interval is
non-negative. The feed check and the one-off fetch are the two producers of
posts, and both place a new post at the channel's queue tail, strictly after
`now`. So in an ordered queue, the post that manual publication
(`publish_next_post`) sends is the channel's oldest pending one
(`Handlers.OldestIsNext`). The tick sends the head of whatever list the
pending-post query returns.

Some behaviours of the code are worth stating on their own:

- A processing error stops a source's walk, but the posts already created
  from its earlier entries stay queued (`Scheduler.IngestSource`).
- Approval does not look at the status, so a rejected post can still be
  published (`Handlers.ApproveRejected`).
- A failed manual publication leaves the post `pending`, while the tick
  marks the same failure `failed` (`Handlers.ManualFailureStaysPending`).
- Nothing checks the sign of an interval that arrives in callback data
  (`Handlers.NegativeIntervalAccepted`). A negative interval can break the
  time order of a queue (`Handlers.SetScheduleIntervals`).

## Model

| member | source | states |
|---|---|---|
| Settings.NormalizeDatabaseUrl | config/settings.py:7-30 | An unset or empty variable gives `sqlite:///bot.db`. Otherwise the value is stripped. A stripped value starting with `https://` in any letter case also gives the SQLite default. A `postgres://` prefix in any letter case is replaced by `postgresql+psycopg2://` with the rest kept verbatim. Anything else is returned stripped. The result never starts with a REST or legacy scheme. |
| Settings.WhitespaceOnlyUrlIsEmpty | config/settings.py:16-19 | A non-empty, whitespace-only value normalises to the empty string, not to the SQLite default, because the emptiness test comes before `strip`. |
| Settings.NormalizeIdempotent | config/settings.py:19-30 | Normalising a normalised URL changes nothing when the input does not strip to the empty string. |
| Settings.WhitespaceOnlyNotIdempotent | config/settings.py:16-19 | On `" "` normalisation is not idempotent: once gives `""`, twice gives the SQLite default. |
| Settings.DriverUrlIsFixed | config/settings.py:26-27 | The driver-qualified URL made from a stripped legacy URL is a fixed point of the normalisation. |
| Settings.DefaultProperties | config/settings.py:15 | The SQLite default is already stripped and starts with neither scheme. |
| Settings.ParseAdminIds | config/settings.py:35 | Commas split the variable (default `""`) and empty pieces are skipped. The parse fails exactly when some remaining piece is not an `int`. Otherwise the list has one value per piece, in order, each being that piece's `int`. |
| Settings.AdminIdsUnset | config/settings.py:35 | An unset variable gives the empty list. |
| Settings.AdminIdsSkipEmpty | config/settings.py:35 | `"1,,2"` gives `[1, 2]`. |
| Settings.AdminIdsRoundTrip | config/settings.py:35 | Writing any list of ids comma-separated and reading it back gives the same list. |
| Queue.TailTime | core/scheduler.py:70-72 | The time of the first row of the channel's posts in descending time order, with PostgreSQL's NULLs first. A result bounds every post of the channel from above and is some post's time. No result means the channel has no posts or has an untimed one. |
| Queue.TailIsMax | core/scheduler.py:70-72 | When every post has a time, the tail is the channel's largest time. |
| Queue.NextSlot | core/scheduler.py:74-78 | A tail later than `now` gives exactly one interval after the tail. A missing tail, or one not after `now`, gives `now + 300`. With a non-negative interval the slot is after `now` and not before the tail. |
| Queue.PlacementIsQueueTail | core/scheduler.py:70-78 | With a non-negative interval, a placed post is after `now` and not earlier than any post of the channel. |
| Queue.NewPost | core/scheduler.py:80-85 | The created row is a pending post of the channel. It has no message id and an id no post uses. Its source URL, title, content, guid, media and text are the given ones, and its time comes from the placement rule. |
| Queue.Enqueue | core/scheduler.py:70-85 | Exactly that row is appended and the existing posts are unchanged. With a non-negative interval the queue invariant is kept and the new time is after `now`. |
| Queue.SetStatus | core/scheduler.py:121-124 | `update_post_status`: rows with the id get the status, and the message id when one is given. Every other row is unchanged, and the queue invariant is kept. |
| Queue.SetStatusTouchesOne | core/scheduler.py:100-124 | With distinct ids, of any two posts at least one is unchanged by a status update. |
| Scheduler.IngestEntries | core/scheduler.py:53-85 | Walks the entries from the last to the first. An entry without media or flagged as a duplicate is skipped: it becomes no post and costs no processor call. The duplicate check sees exactly the posts stored when the entry is reached: the existing ones and those made from older entries. An accepted entry becomes the next post, placed by the rule. Older entries become earlier posts. The processor is called once per accepted entry. An error in processing ends the walk at that entry. Existing posts are kept, and the queue invariant is kept. |
| Scheduler.OldestEntryFirst | core/scheduler.py:53-85 | The oldest entry is judged against the stored posts alone. When it passes both filters it becomes the first new post, placed by the rule, unless processing it raised, which ends the walk with no post added. |
| Scheduler.IngestSource | core/scheduler.py:46-92 | A fetch error flags the source and adds no post. An empty list changes nothing. With the channel row present, the posts added are exactly those of the walk over the entries, and the source is flagged exactly when processing an accepted entry raised. Otherwise `last_guid` moves to the first entry's guid, however many entries were accepted. Without a channel row no post is added, and the source fails exactly when some entry has media. Added posts are pending posts of the source's channel. |
| Scheduler.ApplyCheck | core/scheduler.py:87-92 | `update_source_check` sets `last_guid` or the error flag on the source's rows and nothing else. |
| Scheduler.IngestAll | core/scheduler.py:44-85 | The feed side of the loop: every active source in turn is walked against the posts stored so far, each appending its own run of posts, with the outcome of each source following from its own feed. |
| Scheduler.WriteChecks | core/scheduler.py:87-92 | The row side of the loop: each source row ends up carrying the last check made for its id, no other field changes, and rows of unchecked sources stay as they were. |
| Scheduler.CheckRssSources | core/scheduler.py:38-94 | Every active source gets an outcome, even after another source failed. Each source appends its own run of posts, made by the walk over its own feed against all posts stored before it. A fetch error flags it and an empty list leaves it alone. A non-empty list moves it to the feed's first guid unless it is flagged. With the channel row present it is flagged exactly when its walk aborted. Without it, it is flagged only when some entry has media. Each source row carries the last check made for its id: the new `last_guid` or the error flag. No other field of a row changes, and rows of unchecked sources stay as they were. Posts are only appended, and the queue invariant is kept. |
| Scheduler.PublishTick | core/scheduler.py:96-126 | Only rows with the head's id can change, and only in status and message id. No head, or an inactive or missing channel, means no change. Moderation mode gives `moderation` with no publish call. Otherwise one publish call gives `published` with the returned id when the id is truthy, and `failed` when it is not. |
| Scheduler.TickChangesAtMostOne | core/scheduler.py:100-124 | With distinct ids, one tick changes at most one post. |
| Scheduler.ZeroIdFails | core/scheduler.py:121-124 | A message id of 0 counts as a failed publication. |
| AiProcessor.ChooseModel | core/ai_processor.py:42-44 | The model is always a supported one. The requested model is kept exactly when it is supported; otherwise it is `gpt-4o-mini`. |
| AiProcessor.EmojisFor | core/ai_processor.py:161-167 | Always a list of seven emojis. It is the technology list exactly when the lower-cased topic contains a technology keyword. It is the business list exactly when the topic contains a business keyword and no technology one. Otherwise it is the news list. |
| AiProcessor.PickEmoji | core/ai_processor.py:86 | The drawn emoji is an element of the topic's list. |
| AiProcessor.DefaultTopicIsNews | core/ai_processor.py:45 | The `.get` fallback topic `новости` gets the news emojis. Both callers always pass the channel's topic, so this is an example of `EmojisFor` and not a reachable default. |
| AiProcessor.PoliticsIsTech | core/ai_processor.py:163 | Keywords match as substrings, so the topic "Politics" gets the technology emojis. |
| AiProcessor.Untag | core/ai_processor.py:119 | Removing the `#` of tags never lengthens the line, adds no line break, and leaves a line without `#` unchanged. |
| AiProcessor.DropTagTokens | core/ai_processor.py:121 | After removing `#`-tokens, no `#` is followed by a non-whitespace character. No line break is added. A line without `#` is unchanged, and a first character other than `#` is kept. |
| AiProcessor.CollapseSpaces | core/ai_processor.py:123 | After collapsing, no two whitespace characters are adjacent, and a leading non-whitespace character is kept. |
| AiProcessor.CollapseKeeps | core/ai_processor.py:119-123 | Collapsing whitespace keeps a line free of tags and line breaks. |
| AiProcessor.CollapseFixed | core/ai_processor.py:123 | A line without adjacent whitespace is unchanged. |
| AiProcessor.HashThreshold | core/ai_processor.py:116 | `max(1, int(n * 0.6))`, computed as `(6 * n) / 10`, is at least 1, and at most six tenths of `n` once `n >= 2`. |
| AiProcessor.CleanLine | core/ai_processor.py:107-124 | A line is dropped exactly when, stripped, it is non-empty and either starts with `#` or has at least the threshold of hashtag tokens. A whitespace-only line is kept as it is. A kept line has no tag left and no new line break. |
| AiProcessor.CleanLines | core/ai_processor.py:106-124 | The kept lines are no more than the input lines, and none has a tag. Input lines without line breaks give output lines without them. A kept first line comes first. |
| AiProcessor.CleanLineKeepsPlain | core/ai_processor.py:107-124 | A line without `#`, adjacent whitespace or surrounding whitespace goes through unchanged. |
| AiProcessor.Bold | core/ai_processor.py:101-102 | The heading is `<b>`, the line without surrounding spaces and quotes, then `</b>`. |
| AiProcessor.Embolden | core/ai_processor.py:100-102 | A first line that already holds `<b>` leaves every line unchanged. Any other first line becomes its bold heading. The other lines never change, and no line break is added. |
| AiProcessor.FinalBody | core/ai_processor.py:98-126 | The joined kept lines contain no empty line (`"\n\n"`) and no tag. |
| AiProcessor.JoinLines | core/ai_processor.py:126 | Joining non-empty lines that have no line breaks leaves no empty line. The result starts with the first line and keeps the absence of tags. |
| AiProcessor.Decorate | core/ai_processor.py:128-131 | The post is at most 1000 characters and keeps the absence of empty lines and tags. With a marker glyph it is a prefix of the body. Without one it starts with the topic's drawn emoji and a space, followed by a prefix of the body. |
| AiProcessor.FinalizePost | core/ai_processor.py:93-131 | The finished post is at most 1000 characters and has no empty line and no tag. |
| AiProcessor.HeadingOpensPost | core/ai_processor.py:100-126 | A first line without `<b>`, `#` or adjacent whitespace becomes the stripped bold heading that opens the post. |
| AiProcessor.BoldIsPlain | core/ai_processor.py:100-124 | The bold heading made from such a line survives the line clean-up unchanged. |
| AiProcessor.LetterCounts | core/ai_processor.py:136-141 | Cyrillic letters are at most the letters, which are at most the characters, so `cyr_ratio` lies between 0 and 1. |
| AiProcessor.RussianTextIsRussian | core/ai_processor.py:136-145 | A non-empty text of Russian letters passes the 0.7 check. |
| AiProcessor.EnsureRussian | core/ai_processor.py:133-159 | At most two translations are made, each a new call on the previous answer. The result is the text translated that many times. Every earlier candidate failed the Russian test. Stopping before the second translation means the result passed. |
| AiProcessor.RussianUnchanged | core/ai_processor.py:143-145 | A text that passes is returned unchanged with no translation. |
| AiProcessor.TranslationRetried | core/ai_processor.py:147-155 | When the first translation fails and hands the text back, the second call is still made on that text, and its Russian answer is returned. |
| AiProcessor.FallbackBody | core/ai_processor.py:84-89 | The fallback body is empty or ends in `.`, and is at most 601 characters long. |
| AiProcessor.FallbackBodyPieces | core/ai_processor.py:84-89 | The cut content is the translated content with double line breaks halved, cut at 600 characters. The body is the first four of its `". "` pieces, joined back, with a full stop added unless they already end in one. Content of at most four pieces is kept whole. Longer content is cut exactly where its fifth piece starts. The body is empty only when the cut content is. |
| AiProcessor.FallbackHeading | core/ai_processor.py:90-91 | The heading is `<b>`, the emoji and a space, then the title without surrounding spaces and quotes, then `</b>` and an empty line. |
| AiProcessor.FallbackFormat | core/ai_processor.py:82-91 | The fallback post is at most 1000 characters and opens with `<b>`, the topic's drawn emoji and a space. When it fits, it is the heading of the translated title followed by the body of the translated content, the title being the first translation call and the content the second. |
| AiProcessor.ProcessContent | core/ai_processor.py:41-59 | Only supported models are asked, the channel's choice first. A retry happens exactly after "model not found" on the first call, and it is a second call, to the safe model. The error escapes exactly when that retry fails too. |
| AiProcessor.ProcessedText | core/ai_processor.py:49-59 | Any other failure of the first call gives the fallback post. An answer is finished, checked for Russian and sanitised. |
| AiProcessor.Retry | core/ai_processor.py:51-52 | The retry asks the safe model, and gives no text exactly when that call does not answer. |
| AiProcessor.SafeModelRetryAnswers | core/ai_processor.py:49-52 | When the channel already uses the safe model and the first call finds no model, an answer to the retry still becomes the post, after two calls to the safe model. |
| Handlers.ManualRssUrl | bot/handlers.py:237-241 | The URL always has an HTTP scheme. The stripped input is kept exactly when it already has one; otherwise `https://` is put in front. |
| Handlers.ManualRssUrlIdempotent | bot/handlers.py:237-241 | Typing the produced URL again gives the same URL. |
| Handlers.ParseSetModel | bot/handlers.py:934-936 | The data parses exactly when it has at least three `_` fields and field 2 is an `int`. The stored name never holds `_`. |
| Handlers.SetModelRoundTrip | bot/handlers.py:934-936 | The menu's data gives back the channel id and the model name with every `_` turned into `-`. |
| Handlers.SetModelKeepsPlainName | bot/handlers.py:934-936 | A model name without `_` arrives unchanged. |
| Handlers.ParseSetInterval | bot/handlers.py:761-766 | The data parses exactly when it has four `_` fields and the last two are `int`s. |
| Handlers.SetIntervalRoundTrip | bot/handlers.py:761-763 | The menu's data gives back the channel id and the interval. |
| Handlers.NegativeIntervalAccepted | bot/handlers.py:761-769 | `set_interval_1_-60` is accepted with the interval -60. |
| Handlers.SetInterval | bot/handlers.py:769 | The rows with the id get the interval, and the others are unchanged. |
| Handlers.SetSchedule | bot/handlers.py:758-770 | Unparsable data changes nothing. Parsed data updates the interval. |
| Handlers.SetScheduleIntervals | bot/handlers.py:761-769 | For an existing channel, all intervals stay non-negative after the update exactly when the new interval is non-negative. |
| Handlers.NextPending | bot/handlers.py:447-450 | The pick is a pending post of the channel, and there is none only when nothing is pending. No pending post of the channel has a smaller time, with NULL after every time, and no earlier-stored one has an equal time. |
| Handlers.OldestIsNext | bot/handlers.py:447-450 | In a queue that keeps the invariant, that post is the channel's first pending post in creation order. |
| Handlers.SendNow | bot/handlers.py:462-473 | A missing channel means no publish call and no change. Otherwise there is one call. A truthy message id publishes the post under that id, and anything else changes nothing. |
| Handlers.PublishNextPost | bot/handlers.py:441-478 | With no pending post nothing happens. Otherwise the chosen post is sent, and the queue invariant is kept. |
| Handlers.PublishPost | bot/handlers.py:532-567 | An unknown id does nothing. Otherwise the post is sent whatever its status, and the queue invariant is kept. |
| Handlers.ManualFailureStaysPending | bot/handlers.py:469-473 | A failed manual publication leaves the post `pending`, where the tick would mark it `failed`. |
| Handlers.ManualBypassesModeration | bot/handlers.py:441-478 | In moderation mode, manual publication still publishes the post directly. |
| Handlers.ApproveRejected | bot/handlers.py:671-706 | Approval publishes even a rejected post when an id comes back. |
| Handlers.RejectPost | bot/handlers.py:709-725 | The rows with the id become `rejected` and the rest are unchanged. The success flag is true exactly when such a row exists. The invariant is kept. |
| Handlers.RejectIdempotent | bot/handlers.py:714 | Rejecting twice is rejecting once. |
| Handlers.ClearQueue | bot/handlers.py:517-520 | No pending post of the channel survives, and every other post does. |
| Handlers.ClearQueueKeepsOrder | bot/handlers.py:517-520 | The surviving posts keep their stored order: clearing a queue stored in two parts keeps the first part's survivors before the second's. |
| Handlers.CountQueued | bot/handlers.py:517-525 | The reported count is zero exactly when nothing of the channel is pending. |
| Handlers.ClearQueueCount | bot/handlers.py:517-525 | The deletion removes exactly the counted posts. |
| Handlers.ClearedQueueIsEmpty | bot/handlers.py:517-520 | After clearing, manual publication of the channel finds no post. |
| Handlers.ClearQueueKeepsInvariant | bot/handlers.py:517-520 | Clearing keeps the queue invariant. |
| Handlers.FirstThree | bot/handlers.py:296 | At most three entries are taken, a prefix of the list, and all of a shorter list. |
| Handlers.ActiveSourcesOf | bot/handlers.py:271 | The result holds exactly the channel's active sources. |
| Handlers.Candidates | bot/handlers.py:292-296 | There are candidates exactly when no feed read raises. |
| Handlers.CandidatesBounds | bot/handlers.py:292-301 | At most three entries per source are taken. None at all are taken exactly when every source returned an empty list. |
| Handlers.CandidatesInSourceOrder | bot/handlers.py:293-296 | The candidates of two lists of sources are those of the first list followed by those of the second. |
| Handlers.FirstFresh | bot/handlers.py:306-310 | The pick is the first candidate not flagged as a duplicate, and there is none only when every candidate is flagged. |
| Handlers.CreatePostStart | bot/handlers.py:265-355 | Only a successful run changes the store, by appending one post. Every outcome is stated as an if-and-only-if: missing channel, no sources, a feed error, nothing new, all seen. A fresh candidate is queued exactly when its processing gives a text, and otherwise the run reports a processing failure. The post is the first fresh candidate, processed and placed by the rule, recorded under the first source's URL. The queue invariant is kept, and the post lies after `now`. |
| Handlers.OneOffQueuesWithoutMedia | bot/handlers.py:328-343 | For a channel with one active source whose feed holds one fresh entry without media, and a model that answers, the one-off fetch queues that entry. The feed check's media filter would skip it. |

## Left out

- Telegram I/O, keyboards, message texts, FSM state, APScheduler triggers and the process lock in `main.py` are not modelled. They are UI, scheduling and inter-process plumbing with no store-level logic.
- The feed reader, `check_post_duplicate`, `get_pending_posts`, `get_active_sources`, the publisher, the language model, `simple_translate`, `md_to_html` and `sanitize_html` are parameters. Their code is not part of this model. No duplicate-similarity threshold is assumed.
- `update_post_status`, `update_channel_settings` and `update_source_check` are modelled as updates of every row with the given id. `update_source_check` writes only `last_guid` or the error flag. The crud module is not part of this model. `reject_post`'s success flag is modelled as "a row with that id exists".
- Timeouts and exceptions of the language model are `Failure`. An error of the retry call is folded into "no text", which escapes `process_content`.
- Prompt wording is not modelled. The request records the model, the channel's own prompt or the topic, the title and the first 500 characters of content.
- A channel whose `topic` is NULL is not modelled. The topic is always a string.
- `isalpha`, `\w` and `lower` are approximated for ASCII, Latin-1, Latin Extended-A and Cyrillic. Letters of other scripts count as non-letters.
- `cyr_ratio >= 0.7` is computed in integers as `10 * cyrillic >= 7 * letters`. `int(n * 0.6)` is `(6 * n) / 10`.
- `datetime.utcnow()` is read once per run as `now`. The source reads the clock per entry.
- `random.choice` is one draw per processed entry (`pick` maps the entry to its draw), so entries equal in every field get the same emoji index. A processing draws once, for the finished post or for the fallback post.
- `entries[0]['guid']` is modelled as the entry's optional guid. The source raises `KeyError`, and flags the source, when the parser omits the key.
- The channel and post ids taken from callback data by the other handlers (`split("_")[1]`, `[2]`, `[3]`) are parameters, not parsed.
- Handlers.NextPending: among equal times it picks the post stored first, where SQL promises no order. The pick is the same in any queue that keeps the invariant.
- AiProcessor.FallbackBodyPieces: states the body through Python's `split(". ")` pieces as `Text.Split` defines them. It does not separately prove that re-splitting the body at `". "` gives those pieces back. `Text.Split` with a two-character separator has no such lemma in this model.
- Scheduler.CheckRssSources: makes the posts of all sources first and writes the source rows after, where the code writes each source's row before walking the next source. No walk reads a source row other than its own, which the list of active sources already holds, so the end state is the same.
- Scheduler.IngestSource: a processing error keeps the posts created from earlier entries, which assumes `create_post` commits each row.
- Queue.TailTime and Handlers.NextPending follow PostgreSQL's NULL ordering: NULLs first in descending order, last in ascending order. The configured default database is SQLite (`config/settings.py:15`), which sorts NULL as the smallest value. With an untimed post in the channel, SQLite's `desc()` gives the latest timed post where `TailTime` gives none, and SQLite's ascending order picks the untimed post first. When every post has a time the two orderings agree (`Queue.TailIsMax`), and every post the model creates has one.
- Handlers.ActiveSourcesOf: returns the channel's active sources in stored row order. The query at `bot/handlers.py:271` has no `ORDER BY`, so the database may return them in any order, and `sources[0].url` at `bot/handlers.py:340` is whichever row comes first. The model picks the first stored row.
- AiProcessor.ProcessContent: a model call is told apart by its request and its number within one processing (the retry is call 2). Two processings that send the same request with the same number get the same reply.
- AiProcessor.EnsureRussian: a translation call is told apart by its text and its number within one processing. Two processings that translate the same text as the same call get the same answer.
- Numbers.ParseInt reads ASCII digits only. Python's `int()` also accepts other Unicode decimal digits (`"１２"` is 12), which the model treats as `ValueError`.

=== FILE: ai_processor.dfy ===
/** The post-text shaping of the AI processor: which language model is asked,
    how its answer is turned into a Telegram post (bold heading, no hashtags,
    no blank lines, a leading emoji, at most 1000 characters), the test that
    the text is Russian with at most two re-translations, and the fallback
    post built without the model. The model, the translator, the Markdown
    converter, the HTML sanitiser and the random choice are parameters. */
module AiProcessor {
  import opened Wrappers
  import opened Text
  import opened Models

  // ---------------------------------------------------------------------------
  // Model selection

  const SafeModel: string := "gpt-4o-mini"
  const Supported: set<string> := {"gpt-4o-mini", "gpt-4"}

  /** The channel's model when it is set and supported, the safe model
      otherwise. */
  function ChooseModel(requested: Option<string>): (m: string)
    ensures m in Supported
    // the requested model is kept exactly when it is supported
    ensures requested.Some? && requested.value in Supported <==> requested == Some(m)
    ensures requested != Some(m) ==> m == SafeModel
  {
    var m := if requested.Some? && requested.value != "" then requested.value else SafeModel;
    if m in Supported then m else SafeModel
  }

  // ---------------------------------------------------------------------------
  // Topic emojis

  const TechEmojis: seq<string> :=
    ["\U{1F4BB}", "\U{1F680}", "\U{1F527}", "\U{26A1}", "\U{1F310}", "\U{1F4F1}", "\U{1F916}"]
  const NewsEmojis: seq<string> :=
    ["\U{1F4F0}", "\U{1F4E2}", "\U{1F525}", "\U{26A0}\U{FE0F}", "\U{1F4A1}", "\U{2728}", "\U{1F3AF}"]
  const BusinessEmojis: seq<string> :=
    ["\U{1F4BC}", "\U{1F4C8}", "\U{1F4B0}", "\U{1F3E2}", "\U{1F4CA}", "\U{1F91D}", "\U{1F4B8}"]

  const TechWords: seq<string> := ["it", "tech", "технолог", "программ", "код"]
  const BusinessWords: seq<string> := ["бизнес", "финанс", "экономик", "маркет"]

  /** The fallback of `ch_settings.get("topic", ...)` when the settings carry
      no topic; both callers always pass the channel's topic, so it is only
      reached by other callers. */
  const DefaultTopic: string := "новости"

  /** Some keyword occurs as a substring of `t`. */
  predicate MentionsAny(t: string, words: seq<string>) {
    exists k :: 0 <= k < |words| && Contains(t, words[k])
  }

  /** An emoji as the formatter uses it: one or two code points, none of them
      whitespace, `#` or a line break. */
  predicate IsEmoji(e: string) {
    0 < |e| <= 2 && forall i :: 0 <= i < |e| ==> !IsSpace(e[i]) && e[i] != '#'
  }

  /** `_emojis_for`: the emoji list of the topic, chosen by keywords of the
      lower-cased topic, technology before business before news. */
  function EmojisFor(topic: string): (r: seq<string>)
    ensures |r| == 7
    ensures forall k :: 0 <= k < |r| ==> IsEmoji(r[k])
    ensures r == TechEmojis <==> MentionsAny(Lower(topic), TechWords)
    ensures r == BusinessEmojis <==> !MentionsAny(Lower(topic), TechWords) && MentionsAny(Lower(topic), BusinessWords)
    ensures r == NewsEmojis <==> !MentionsAny(Lower(topic), TechWords) && !MentionsAny(Lower(topic), BusinessWords)
  {
    var t := Lower(topic);
    if MentionsAny(t, TechWords) then TechEmojis
    else if MentionsAny(t, BusinessWords) then BusinessEmojis
    else NewsEmojis
  }

  /** The element `random.choice` returns for the draw `pick`. */
  function PickEmoji(topic: string, pick: nat): (e: string)
    ensures e in EmojisFor(topic) && IsEmoji(e)
  {
    var es := EmojisFor(topic);
    es[pick % |es|]
  }

  /** The `.get` fallback topic is neither a technology nor a business one. */
  lemma DefaultTopicIsNews()
    ensures EmojisFor(DefaultTopic) == NewsEmojis
  {
    LowerDefaultTopic();
    DefaultTopicNotTech();
    DefaultTopicNotBusiness();
  }

  lemma DefaultTopicNotTech()
    ensures !MentionsAny(DefaultTopic, TechWords)
  {
    var t := DefaultTopic;
    assert 'i' !in t && 't' !in t && 'п' !in t && 'к' !in t && |TechWords[2]| > |t|;
    NoneMentioned(t, TechWords);
  }

  lemma DefaultTopicNotBusiness()
    ensures !MentionsAny(DefaultTopic, BusinessWords)
  {
    var t := DefaultTopic;
    assert 'б' !in t && 'ф' !in t && 'э' !in t && 'м' !in t;
    NoneMentioned(t, BusinessWords);
  }

  /** No keyword occurs when each is longer than the text or starts with a
      character the text lacks. */
  lemma NoneMentioned(t: string, words: seq<string>)
    requires forall k :: 0 <= k < |words| ==> |words[k]| > 0 && (|words[k]| > |t| || words[k][0] !in t)
    ensures !MentionsAny(t, words)
  {
    forall k | 0 <= k < |words|
      ensures !Contains(t, words[k])
    {
      NotContainsForeign(t, words[k]);
    }
  }

  lemma LowerDefaultTopic()
    ensures Lower(DefaultTopic) == DefaultTopic
  {
    var t := DefaultTopic;
    assert forall i :: 0 <= i < |t| ==> '\U{430}' <= t[i] <= '\U{44F}';
  }

  /** `sub` does not occur in `s` when it is longer than `s` or its first
      character does not occur in `s`. */
  lemma {:induction false} NotContainsForeign(s: string, sub: string)
    requires |sub| > 0 && (|sub| > |s| || sub[0] !in s)
    ensures !Contains(s, sub)
    decreases |s|
  {
    if |s| > 0 {
      assert |sub| <= |s| ==> s[0] != sub[0];
      assert forall c :: c in s[1..] ==> c in s;
      NotContainsForeign(s[1..], sub);
    }
  }

  /** Keywords match as substrings: "Politics" contains "it" and so gets the
      technology emojis. */
  lemma PoliticsIsTech()
    ensures EmojisFor("Politics") == TechEmojis
  {
    var t := Lower("Politics");
    assert t == "politics";
    assert t[3..][..2] == "it";
    assert Contains(t[3..], "it");
    assert Contains(t[2..], "it");
    assert Contains(t[1..], "it");
    assert Contains(t, "it");
    assert TechWords[0] == "it";
    assert MentionsAny(t, TechWords);
  }

  // ---------------------------------------------------------------------------
  // Hashtag and whitespace clean-up of one line

  /** No `#` is immediately followed by a non-whitespace character. */
  predicate NoHashTag(s: string) {
    forall i :: 0 <= i < |s| && s[i] == '#' ==> i + 1 == |s| || IsSpace(s[i + 1])
  }

  /** No two whitespace characters are adjacent. */
  predicate NoDoubleSpace(s: string) {
    forall i :: 0 <= i < |s| - 1 ==> !(IsSpace(s[i]) && IsSpace(s[i + 1]))
  }

  /** `re.sub(r'(^|\s)#(\w+)', r'\1\2', s)`: a `#` disappears when it starts
      the line or follows whitespace and a word character follows it.
      `boundary` says whether the position before `s` is the line start or
      whitespace; the words themselves are kept. */
  function Untag(s: string, boundary: bool): (r: string)
    ensures |r| <= |s|
    ensures '\n' !in s ==> '\n' !in r
    ensures '#' !in s ==> r == s
    decreases |s|
  {
    if |s| == 0 then ""
    else
      assert forall c :: c in s[1..] ==> c in s;
      if boundary && s[0] == '#' && |s| > 1 && IsWordChar(s[1]) then Untag(s[1..], false)
      else [s[0]] + Untag(s[1..], IsSpace(s[0]))
  }

  /** `re.sub(r'#\S+', '', s)`: every `#` that a non-whitespace character
      follows is removed together with the whole non-whitespace run after it. */
  function DropTagTokens(s: string): (r: string)
    ensures NoHashTag(r)
    ensures '\n' !in s ==> '\n' !in r
    ensures '#' !in s ==> r == s
    ensures |s| > 0 && s[0] != '#' ==> |r| > 0 && r[0] == s[0]
    decreases |s|
  {
    if |s| == 0 then ""
    else
      assert forall c :: c in s[1..] ==> c in s;
      if s[0] == '#' && |s| > 1 && !IsSpace(s[1]) then
        var n := 1 + NonSpaceRun(s[1..]);
        assert forall c :: c in s[n..] ==> c in s;
        DropTagTokens(s[n..])
      else
        var rest := DropTagTokens(s[1..]);
        var r := [s[0]] + rest;
        assert forall i :: 1 <= i < |r| ==> r[i] == rest[i - 1];
        r
  }

  /** `re.sub(r'\s{2,}', ' ', s)`: every run of two or more whitespace
      characters becomes one space; a single whitespace character stays. */
  function CollapseSpaces(s: string): (r: string)
    ensures NoDoubleSpace(r)
    ensures |s| > 0 ==> |r| > 0 && (IsSpace(r[0]) <==> IsSpace(s[0])) && (!IsSpace(s[0]) ==> r[0] == s[0])
    decreases |s|
  {
    if |s| == 0 then ""
    else
      var n := LeadingCount(s, IsSpace);
      if n >= 2 then
        var rest := CollapseSpaces(s[n..]);
        var r := " " + rest;
        assert forall i :: 1 <= i < |r| ==> r[i] == rest[i - 1];
        r
      else
        var rest := CollapseSpaces(s[1..]);
        var r := [s[0]] + rest;
        assert forall i :: 1 <= i < |r| ==> r[i] == rest[i - 1];
        r
  }

  /** A suffix of a line without hashtags has none either. */
  lemma NoHashTagSuffix(s: string, m: nat)
    requires m <= |s| && NoHashTag(s)
    ensures NoHashTag(s[m..]) && ('\n' !in s ==> '\n' !in s[m..])
  {
    assert forall i :: 0 <= i < |s[m..]| ==> s[m..][i] == s[m + i];
  }

  /** Where `CollapseSpaces` resumes after the first character or run. */
  function CollapseCut(s: string): (m: nat)
    requires |s| > 0
    ensures 1 <= m <= |s|
  {
    var n := LeadingCount(s, IsSpace);
    if n >= 2 then n else 1
  }

  /** Collapsing whitespace keeps a line free of hashtags and line breaks. */
  lemma {:induction false} CollapseKeeps(s: string)
    ensures NoHashTag(s) ==> NoHashTag(CollapseSpaces(s))
    ensures '\n' !in s ==> '\n' !in CollapseSpaces(s)
    decreases |s|
  {
    if |s| > 0 {
      CollapseKeeps(s[CollapseCut(s)..]);
      CollapseStepNewline(s);
      CollapseStepTags(s);
    }
  }

  /** One step of `CollapseSpaces`. */
  lemma CollapseUnfold(s: string)
    requires |s| > 0
    ensures CollapseSpaces(s) == [if CollapseCut(s) >= 2 then ' ' else s[0]] + CollapseSpaces(s[CollapseCut(s)..])
  {
  }

  lemma CollapseStepNewline(s: string)
    requires |s| > 0
    requires var m := CollapseCut(s); '\n' !in s[m..] ==> '\n' !in CollapseSpaces(s[m..])
    ensures '\n' !in s ==> '\n' !in CollapseSpaces(s)
  {
    var m := CollapseCut(s);
    assert forall c :: c in s[m..] ==> c in s;
    CollapseUnfold(s);
  }

  lemma CollapseStepTags(s: string)
    requires |s| > 0
    requires var m := CollapseCut(s); NoHashTag(s[m..]) ==> NoHashTag(CollapseSpaces(s[m..]))
    ensures NoHashTag(s) ==> NoHashTag(CollapseSpaces(s))
  {
    var m := CollapseCut(s);
    if NoHashTag(s) {
      NoHashTagSuffix(s, m);
      CollapseUnfold(s);
      var rest := CollapseSpaces(s[m..]);
      if m == 1 && s[0] == '#' && |s| > 1 {
        assert IsSpace(s[1]) && IsSpace(rest[0]);
      }
      NoHashTagCons(if m >= 2 then ' ' else s[0], rest);
    }
  }

  /** A character in front of a line without hashtags keeps it so, unless
      it is a `#` before a non-space. */
  lemma NoHashTagCons(c: char, rest: string)
    requires NoHashTag(rest) && (c == '#' ==> |rest| == 0 || IsSpace(rest[0]))
    ensures NoHashTag([c] + rest)
  {
    var r := [c] + rest;
    assert forall i :: 1 <= i < |r| ==> r[i] == rest[i - 1];
  }

  /** A line without doubled whitespace is left as it is. */
  lemma {:induction false} CollapseFixed(s: string)
    requires NoDoubleSpace(s)
    ensures CollapseSpaces(s) == s
    decreases |s|
  {
    if |s| > 0 {
      assert LeadingCount(s, IsSpace) <= 1;
      CollapseFixed(s[1..]);
      assert [s[0]] + s[1..] == s;
    }
  }

  /** Stripping keeps a string free of hashtags and of line breaks. */
  lemma StripKeeps(s: string)
    ensures NoHashTag(s) ==> NoHashTag(Strip(s))
    ensures '\n' !in s ==> '\n' !in Strip(s)
    ensures NoDoubleSpace(s) ==> NoDoubleSpace(Strip(s))
  {
    var a := LeadingCount(s, IsSpace);
    var r := Strip(s);
    assert forall i :: 0 <= i < |r| ==> r[i] == s[a + i];
  }

  /** `max(1, int(n * 0.6))` for a count `n`, in integers as `(6 * n) / 10`.
      The float product can fall just short of the exact one (`3 * 0.6` is
      1.7999999999999998), but its integer part is the same for the counts
      a line can have. */
  function HashThreshold(n: nat): (t: nat)
    ensures t >= 1
    ensures n >= 2 ==> 10 * t <= 6 * n
  {
    if (6 * n) / 10 < 1 then 1 else (6 * n) / 10
  }

  /** The number of tokens that start with `#`. */
  function CountTagged(ws: seq<string>): (c: nat)
    ensures c <= |ws|
  {
    if |ws| == 0 then 0
    else (if |ws[0]| > 0 && ws[0][0] == '#' then 1 else 0) + CountTagged(ws[1..])
  }

  /** The hashtag tokens make up at least the threshold share of the line. */
  predicate TooManyTags(stripped: string) {
    var ws := Words(stripped);
    |ws| > 0 && CountTagged(ws) >= HashThreshold(|ws|)
  }

  /** The line, stripped, is non-empty and starts with `#` or has too many
      hashtag tokens. */
  predicate Dropped(line: string) {
    var t := Strip(line);
    t != "" && (t[0] == '#' || TooManyTags(t))
  }

  /** One line of the loop over the post's lines: `None` when the line is
      dropped, otherwise the line as it goes into the post. */
  function CleanLine(line: string): (r: Option<string>)
    // a line that is dropped is a heading or hashtag line
    ensures r.None? <==> Dropped(line)
    // a whitespace-only line is kept as it is
    ensures Strip(line) == "" ==> r == Some(line)
    // a kept line has no hashtag left and no new line break
    ensures r.Some? ==> NoHashTag(r.value)
    ensures r.Some? && '\n' !in line ==> '\n' !in r.value
  {
    var t := Strip(line);
    if t == "" then
      assert forall i :: 0 <= i < |line| ==> IsSpace(line[i]);
      Some(line)
    else if t[0] == '#' || TooManyTags(t) then None
    else
      var d := DropTagTokens(Untag(line, true));
      var c := CollapseSpaces(d);
      CollapseKeeps(d);
      StripKeeps(c);
      Some(Strip(c))
  }

  /** The lines the loop keeps, in order. */
  function CleanLines(lines: seq<string>): (r: seq<string>)
    ensures |r| <= |lines|
    ensures AllNoHashTag(r)
    ensures AllNoNewline(lines) ==> AllNoNewline(r)
    ensures |lines| > 0 && CleanLine(lines[0]).Some? ==> |r| > 0 && r[0] == CleanLine(lines[0]).value
  {
    if |lines| == 0 then []
    else
      var rest := CleanLines(lines[1..]);
      var c := CleanLine(lines[0]);
      if c.None? then
        AllNoNewlineTail(lines);
        rest
      else
        AllNoNewlineTail(lines);
        ConsLine(c.value, rest);
        [c.value] + rest
  }

  predicate AllNoHashTag(ls: seq<string>) {
    forall k :: 0 <= k < |ls| ==> NoHashTag(ls[k])
  }

  predicate AllNoNewline(ls: seq<string>) {
    forall k :: 0 <= k < |ls| ==> NoNewline(ls[k])
  }

  lemma AllNoNewlineTail(ls: seq<string>)
    requires |ls| > 0
    ensures AllNoNewline(ls) ==> AllNoNewline(ls[1..]) && NoNewline(ls[0])
  {
    assert forall k :: 1 <= k < |ls| ==> ls[k] == ls[1..][k - 1];
  }

  lemma ConsLine(l: string, rest: seq<string>)
    ensures NoHashTag(l) && AllNoHashTag(rest) ==> AllNoHashTag([l] + rest)
    ensures NoNewline(l) && AllNoNewline(rest) ==> AllNoNewline([l] + rest)
  {
    var r := [l] + rest;
    assert forall k :: 1 <= k < |r| ==> r[k] == rest[k - 1];
  }

  predicate NoNewline(s: string) {
    '\n' !in s
  }

  /** A line without `#`, without two adjacent whitespace characters and
      without surrounding whitespace goes into the post unchanged. */
  lemma CleanLineKeepsPlain(line: string)
    requires '#' !in line && NoDoubleSpace(line)
    requires |line| > 0 && !IsSpace(line[0]) && !IsSpace(line[|line| - 1])
    ensures CleanLine(line) == Some(line)
  {
    TrimFixed(line, IsSpace);
    CollapseFixed(line);
    WordsUntagged(line);
    assert CountTagged(Words(line)) == 0;
  }

  /** Without `#` in the line no token is a hashtag. */
  lemma {:induction false} WordsUntagged(s: string)
    requires '#' !in s
    ensures CountTagged(Words(s)) == 0
    decreases |s|
  {
    var t := s[LeadingCount(s, IsSpace)..];
    assert forall c :: c in t ==> c in s;
    if |t| > 0 {
      var n := NonSpaceRun(t);
      assert forall c :: c in t[n..] ==> c in t;
      WordsUntagged(t[n..]);
      var ws := Words(s);
      assert ws == [t[..n]] + Words(t[n..]);
      assert ws[1..] == Words(t[n..]);
      assert ws[0][0] == t[0];
    }
  }

  // ---------------------------------------------------------------------------
  // The whole post

  const MaxPostLength: nat := 1000

  /** The marker glyphs whose presence makes the leading emoji unnecessary. */
  const Markers: set<char> := {'\U{1F4F0}', '\U{1F525}', '\U{1F4A1}', '\U{1F680}', '\U{26A1}',
                               '\U{2728}', '\U{1F3AF}', '\U{1F4BB}', '\U{1F916}'}

  predicate HasMarker(s: string) {
    exists i :: 0 <= i < |s| && s[i] in Markers
  }

  /** No empty line: `"\n\n"` does not occur. */
  predicate NoBlankLine(s: string) {
    forall i :: 0 <= i < |s| - 1 ==> !(s[i] == '\n' && s[i + 1] == '\n')
  }

  predicate IsQuoteOrSpace(c: char) {
    c == ' ' || c == '"' || c == '\''
  }

  /** The answer stripped, and passed through the Markdown converter when it
      contains `**`, `__` or a backquote. */
  function Prepared(raw: string, toHtml: string -> string): string {
    var t := Strip(raw);
    if Contains(t, "**") || Contains(t, "__") || Contains(t, "`") then toHtml(t) else t
  }

  /** The heading a first line becomes: its spaces and quotes stripped, in bold. */
  function Bold(line: string): (r: string)
    ensures StartsWith(r, "<b>") && |r| >= 7 && r[|r| - 4..] == "</b>"
    // the text in bold is the line without surrounding spaces and quotes
    ensures r[3..|r| - 4] == Trim(line, IsQuoteOrSpace)
  {
    "<b>" + Trim(line, IsQuoteOrSpace) + "</b>"
  }

  /** The first line in bold unless it already contains `<b>`. */
  function Embolden(lines: seq<string>): (r: seq<string>)
    requires |lines| > 0
    ensures |r| == |lines| && r[1..] == lines[1..]
    // a first line that already holds `<b>` is kept, any other is put in bold
    ensures Contains(lines[0], "<b>") ==> r == lines
    ensures !Contains(lines[0], "<b>") ==> r[0] == Bold(lines[0])
    ensures (forall k :: 0 <= k < |lines| ==> '\n' !in lines[k]) ==> forall k :: 0 <= k < |r| ==> '\n' !in r[k]
  {
    var l := Trim(lines[0], IsQuoteOrSpace);
    var a := LeadingCount(lines[0], IsQuoteOrSpace);
    assert forall i :: 0 <= i < |l| ==> l[i] == lines[0][a + i];
    if Contains(lines[0], "<b>") then lines else [Bold(lines[0])] + lines[1..]
  }

  /** The text before the emoji and the length cap: the kept lines, empty
      ones left out, joined by line breaks. */
  function FinalBody(raw: string, toHtml: string -> string): (body: string)
    ensures NoBlankLine(body) && NoHashTag(body)
  {
    var lines := Embolden(Split(Prepared(raw, toHtml), "\n"));
    var kept := NonEmpty(CleanLines(lines));
    JoinLines(kept);
    Join(kept, "\n")
  }

  /** Non-empty lines without line breaks, joined by line breaks, leave no
      empty line, and no hashtag when none of them has one. */
  lemma {:induction false} JoinLines(ls: seq<string>)
    requires forall k :: 0 <= k < |ls| ==> ls[k] != "" && '\n' !in ls[k]
    ensures var j := Join(ls, "\n");
            && NoBlankLine(j)
            && ((forall k :: 0 <= k < |ls| ==> NoHashTag(ls[k])) ==> NoHashTag(j))
            && (|ls| > 0 ==> StartsWith(j, ls[0]))
    decreases |ls|
  {
    if |ls| > 1 {
      JoinLines(ls[1..]);
      var rest := Join(ls[1..], "\n");
      var j := Join(ls, "\n");
      var h := ls[0];
      assert j == h + "\n" + rest;
      assert StartsWith(rest, ls[1]);
      assert rest[0] == ls[1][0] && ls[1][0] in ls[1];
      assert forall i :: 0 <= i < |h| ==> j[i] == h[i] && h[i] in h;
      assert j[|h|] == '\n';
      assert forall i :: |h| < i < |j| ==> j[i] == rest[i - |h| - 1];
      assert j[..|h|] == h;
    }
  }

  /** A prefix of a string keeps its absence of empty lines and hashtags. */
  lemma PrefixKeeps(s: string, n: nat)
    ensures NoBlankLine(s) ==> NoBlankLine(Take(s, n))
    ensures NoHashTag(s) ==> NoHashTag(Take(s, n))
  {
  }

  /** The last step of `_finalize_post`: a topic emoji and a space put before
      a body without marker glyphs, then the cut at the length cap. */
  function Decorate(body: string, topic: string, pick: nat): (r: string)
    ensures |r| <= MaxPostLength
    ensures NoBlankLine(body) && NoHashTag(body) ==> NoBlankLine(r) && NoHashTag(r)
    // with a marker glyph the post is the body, cut to the length cap
    ensures HasMarker(body) ==> |r| <= |body| && r == body[..|r|] && (|r| == MaxPostLength || |r| == |body|)
    // without one it is an emoji of the topic (the draw's choice), a space
    // and the body, cut
    ensures !HasMarker(body) ==>
              var e := PickEmoji(topic, pick);
              && StartsWith(r, e + " ")
              && |r| - |e| - 1 <= |body|
              && r[|e| + 1..] == body[..|r| - |e| - 1]
  {
    if HasMarker(body) then
      PrefixKeeps(body, MaxPostLength);
      Take(body, MaxPostLength)
    else
      var e := PickEmoji(topic, pick);
      EmojiPrefixed(e, body);
      Take(e + " " + body, MaxPostLength)
  }

  /** An emoji and a space put before a body, then cut at the length cap. */
  lemma EmojiPrefixed(e: string, body: string)
    requires IsEmoji(e)
    ensures var r := Take(e + " " + body, MaxPostLength);
            && (NoBlankLine(body) && NoHashTag(body) ==> NoBlankLine(r) && NoHashTag(r))
            && StartsWith(r, e + " ")
            && r[|e| + 1..] == body[..|r| - |e| - 1]
  {
    var full := e + " " + body;
    assert forall i :: |e| < i < |full| ==> full[i] == body[i - |e| - 1];
    assert NoBlankLine(body) && NoHashTag(body) ==> NoBlankLine(full) && NoHashTag(full);
    PrefixKeeps(full, MaxPostLength);
    var r := Take(full, MaxPostLength);
    assert r[..|e| + 1] == e + " ";
  }

  /** `_finalize_post`: the post built from the model's answer `raw`. */
  function FinalizePost(raw: string, topic: string, toHtml: string -> string, pick: nat): (r: string)
    ensures |r| <= MaxPostLength
    ensures NoBlankLine(r) && NoHashTag(r)
  {
    Decorate(FinalBody(raw, toHtml), topic, pick)
  }

  /** A first line without `<b>`, `#` or doubled whitespace becomes the bold
      heading that opens the post. */
  lemma HeadingOpensPost(raw: string, toHtml: string -> string)
    requires var l := Split(Prepared(raw, toHtml), "\n")[0];
             !Contains(l, "<b>") && '#' !in l && NoDoubleSpace(l)
    ensures var l := Split(Prepared(raw, toHtml), "\n")[0];
            StartsWith(FinalBody(raw, toHtml), Bold(l))
  {
    var lines := Split(Prepared(raw, toHtml), "\n");
    var b := Bold(lines[0]);
    BoldIsPlain(lines[0]);
    var em := Embolden(lines);
    assert em[0] == b;
    var cleaned := CleanLines(em);
    assert AllNoNewline(cleaned);
    var kept := NonEmpty(cleaned);
    assert kept[0] == b;
    JoinLines(kept);
  }

  /** The bold heading made from a line without `#` and doubled whitespace
      passes the line clean-up unchanged. */
  lemma BoldIsPlain(l: string)
    requires '#' !in l && NoDoubleSpace(l)
    ensures CleanLine(Bold(l)) == Some(Bold(l))
  {
    var t := Trim(l, IsQuoteOrSpace);
    TrimmedIsPlain(l);
    WrappedIsPlain(t);
    CleanLineKeepsPlain(Bold(l));
  }

  lemma TrimmedIsPlain(l: string)
    requires '#' !in l && NoDoubleSpace(l)
    ensures var t := Trim(l, IsQuoteOrSpace); '#' !in t && NoDoubleSpace(t)
  {
    var t := Trim(l, IsQuoteOrSpace);
    var a := LeadingCount(l, IsQuoteOrSpace);
    assert forall i :: 0 <= i < |t| ==> t[i] == l[a + i];
  }

  lemma WrappedIsPlain(t: string)
    requires '#' !in t && NoDoubleSpace(t)
    ensures var b := "<b>" + t + "</b>"; '#' !in b && NoDoubleSpace(b)
  {
    var b := "<b>" + t + "</b>";
    assert forall i :: 3 <= i < 3 + |t| ==> b[i] == t[i - 3];
    assert forall i :: 3 + |t| <= i < |b| ==> b[i] == "</b>"[i - 3 - |t|];
  }

  // ---------------------------------------------------------------------------
  // The Russian-language check

  datatype Counts = Counts(letters: nat, cyrillic: nat)

  /** A letter of the Russian alphabet in either case. */
  predicate IsCyrillic(c: char) {
    var l := LowerChar(c);
    ('\U{430}' <= l <= '\U{44F}') || l == '\U{451}'
  }

  /** The letters of `s` and how many of them are Cyrillic; their quotient is
      `cyr_ratio`, which thus lies between 0 and 1. */
  function LetterCounts(s: string): (k: Counts)
    ensures k.cyrillic <= k.letters <= |s|
  {
    if |s| == 0 then Counts(0, 0)
    else
      var rest := LetterCounts(s[1..]);
      if IsAlpha(s[0]) then Counts(rest.letters + 1, rest.cyrillic + (if IsCyrillic(s[0]) then 1 else 0))
      else rest
  }

  /** `cyr_ratio(s) >= 0.7`, in integers; a text without letters has ratio 0. */
  predicate RussianEnough(s: string) {
    var k := LetterCounts(s);
    k.letters > 0 && 10 * k.cyrillic >= 7 * k.letters
  }

  /** A non-empty text of Russian letters passes the Russian test. */
  lemma RussianTextIsRussian(s: string)
    requires |s| > 0
    requires forall i :: 0 <= i < |s| ==> '\U{410}' <= s[i] <= '\U{44F}'
    ensures RussianEnough(s)
  {
    AllCyrillicCounts(s);
  }

  lemma {:induction false} AllCyrillicCounts(s: string)
    requires forall i :: 0 <= i < |s| ==> '\U{410}' <= s[i] <= '\U{44F}'
    ensures LetterCounts(s) == Counts(|s|, |s|)
  {
    if |s| > 0 {
      AllCyrillicCounts(s[1..]);
      assert IsAlpha(s[0]) && IsCyrillic(s[0]);
    }
  }

  /** `simple_translate`: the answer of translation call number `n` of one
      processing, given the text it is asked to translate. Each call is a new
      request, so a second call on the same text may answer differently. */
  type Translator = (string, nat) -> string

  /** The text after `n` translation calls, each on the previous answer. */
  function Translated(translate: Translator, text: string, n: nat): string {
    if n == 0 then text else translate(Translated(translate, text, n - 1), n)
  }

  datatype Checked = Checked(text: string, calls: nat)

  /** `_ensure_russian`: the first of the text, its translation and the
      translation of that which is Russian enough, or the last of them. */
  function EnsureRussian(text: string, translate: Translator): (r: Checked)
    ensures r.calls <= 2
    ensures r.text == Translated(translate, text, r.calls)
    // every candidate before the returned one failed the Russian test
    ensures forall j :: 0 <= j < r.calls ==> !RussianEnough(Translated(translate, text, j))
    // the search stops early only on success
    ensures r.calls < 2 ==> RussianEnough(r.text)
  {
    if RussianEnough(text) then Checked(text, 0)
    else
      var t1 := translate(text, 1);
      if RussianEnough(t1) then Checked(t1, 1)
      else
        assert Translated(translate, text, 1) == t1;
        Checked(translate(t1, 2), 2)
  }

  /** A text that already passes is returned unchanged, with no translation. */
  lemma RussianUnchanged(text: string, translate: Translator)
    requires RussianEnough(text)
    ensures EnsureRussian(text, translate) == Checked(text, 0)
  {
  }

  /** A failed first translation hands the text back unchanged; the second
      call is a new request and may still give a Russian text. */
  lemma TranslationRetried(text: string, translate: Translator)
    requires !RussianEnough(text) && translate(text, 1) == text
    requires RussianEnough(translate(text, 2))
    ensures EnsureRussian(text, translate) == Checked(translate(text, 2), 2)
  {
  }

  // ---------------------------------------------------------------------------
  // The fallback post

  const FallbackContentLength: nat := 600
  const FallbackSentences: nat := 4

  /** The translated content with double line breaks halved, cut at 600
      characters. */
  function FallbackCut(content: string): string {
    Take(ReplaceAll(content, "\n\n", "\n"), FallbackContentLength)
  }

  /** The body of the fallback post: the first four `". "`-separated pieces of
      the cut content, with a final full stop (`FallbackBodyPieces` states
      which text it holds). */
  function FallbackBody(content: string): (body: string)
    ensures body == "" || body[|body| - 1] == '.'
    ensures |body| <= FallbackContentLength + 1
  {
    var cut := FallbackCut(content);
    var pieces := Split(cut, ". ");
    var n := if FallbackSentences < |pieces| then FallbackSentences else |pieces|;
    var j := Join(pieces[..n], ". ");
    JoinSplitPrefix(cut, ". ", FallbackSentences);
    if j != "" && j[|j| - 1] != '.' then j + "." else j
  }

  /** What the fallback body holds: the first four pieces of the cut content,
      all of it when it has no more, with a full stop added unless they end in
      one; it is empty only for empty content. */
  lemma FallbackBodyPieces(content: string)
    ensures var body := FallbackBody(content);
            var cut := FallbackCut(content);
            var pieces := Split(cut, ". ");
            var core := Join(pieces[..if FallbackSentences < |pieces| then FallbackSentences else |pieces|], ". ");
            // the body is the first pieces, with a full stop added unless they end in one
            && (body == core || body == core + ".")
            && (body == core <==> core == "" || core[|core| - 1] == '.')
            // content of at most four pieces is kept whole
            && (|pieces| <= FallbackSentences ==> core == cut)
            // longer content is cut where its fifth piece starts
            && (|pieces| > FallbackSentences ==> |core| + 2 <= |cut| && cut[..|core| + 2] == core + ". ")
            // the body is empty only for empty content
            && (body == "" <==> cut == "")
  {
    var cut := FallbackCut(content);
    var pieces := Split(cut, ". ");
    var n := if FallbackSentences < |pieces| then FallbackSentences else |pieces|;
    FirstPieces(cut, n);
  }

  /** The first `n` pieces of `cut`, joined back: a prefix of `cut`, all of it
      when `n` covers every piece, otherwise followed by the separator. */
  lemma FirstPieces(cut: string, n: nat)
    requires 0 < n
    requires var pieces := Split(cut, ". "); n <= |pieces|
    ensures var pieces := Split(cut, ". ");
            var j := Join(pieces[..n], ". ");
            && |j| <= |cut| && j == cut[..|j|]
            && (n == |pieces| ==> j == cut)
            && (n < |pieces| ==> |j| + 2 <= |cut| && cut[..|j| + 2] == j + ". ")
            && (1 < n ==> |j| >= 2)
  {
    var pieces := Split(cut, ". ");
    var j := Join(pieces[..n], ". ");
    JoinSplit(cut, ". ");
    JoinPrefix(pieces, n, ". ");
    if n < |pieces| {
      JoinSplitAt(pieces, n, ". ");
      assert cut == j + ". " + Join(pieces[n..], ". ");
      assert cut[..|j| + 2] == j + ". ";
    } else {
      assert pieces[..n] == pieces;
    }
    if 1 < n {
      assert j == pieces[0] + ". " + Join(pieces[..n][1..], ". ");
    }
  }

  /** `_fallback_format`: a bold emoji-and-title heading, an empty line and
      the fallback body, cut at 1000 characters. */
  function FallbackFormat(title: string, content: string, topic: string, translate: Translator, pick: nat): (r: string)
    ensures |r| <= MaxPostLength
    // the heading opens with the topic's emoji
    ensures StartsWith(r, "<b>" + PickEmoji(topic, pick) + " ")
    ensures var head := FallbackHeading(translate(title, 1), PickEmoji(topic, pick));
            |head| + |FallbackBody(translate(content, 2))| <= MaxPostLength ==>
              r == head + FallbackBody(translate(content, 2))
  {
    var e := PickEmoji(topic, pick);
    var head := FallbackHeading(translate(title, 1), e);
    var full := head + FallbackBody(translate(content, 2));
    var r := Take(full, MaxPostLength);
    assert full[..|e| + 4] == "<b>" + e + " ";
    assert r[..|e| + 4] == "<b>" + e + " ";
    r
  }

  /** The heading of the fallback post. */
  function FallbackHeading(title: string, emoji: string): (h: string)
    ensures StartsWith(h, "<b>" + emoji + " ")
    ensures |h| >= |emoji| + 10 && h[|h| - 6..] == "</b>\n\n"
    // between them the title, without surrounding spaces and quotes
    ensures h[|emoji| + 4..|h| - 6] == Trim(title, IsQuoteOrSpace)
  {
    "<b>" + emoji + " " + Trim(title, IsQuoteOrSpace) + "</b>\n\n"
  }

  // ---------------------------------------------------------------------------
  // process_content

  /** What one call to the model ends with. */
  datatype Reply = Answer(text: string) | ModelNotFound | Failure

  /** What the model is asked: the model, the channel's own system prompt if
      it has one (else the default prompt for the topic), and the entry's
      title and first 500 characters of content. `call` numbers the calls of
      one processing (1 for the first, 2 for the retry): each is a new
      request, so the retry may answer where the first call did not, even
      with the same model. */
  datatype Request = Request(model: string, customPrompt: Option<string>, topic: string, title: string, excerpt: string,
                             call: nat)

  /** The collaborators of the processor. `pick` is the draw of
      `random.choice` made while processing an entry. */
  datatype Oracles = Oracles(
    llm: Request -> Reply,
    translate: Translator,
    toHtml: string -> string,
    sanitize: string -> string,
    pick: Entry -> nat)

  /** The outcome of `process_content`: the post text, or `None` when an error
      escapes it, and the models asked, in order. */
  datatype Processed = Processed(text: Option<string>, models: seq<string>)

  const ExcerptLength: nat := 500

  /** Call number `call` of processing entry `e` for channel `ch`. */
  function RequestFor(model: string, call: nat, e: Entry, ch: Channel): Request {
    var custom := if ch.aiPrompt.Some? && ch.aiPrompt.value != "" then ch.aiPrompt else None;
    Request(model, custom, ch.topic, e.title, Take(e.content, ExcerptLength), call)
  }

  /** The post built from an answer of the model to entry `e`. */
  function Polish(raw: string, e: Entry, topic: string, o: Oracles): string {
    o.sanitize(EnsureRussian(FinalizePost(raw, topic, o.toHtml, o.pick(e)), o.translate).text)
  }

  /** `process_content`. */
  function ProcessContent(e: Entry, ch: Channel, o: Oracles): (r: Processed)
    // only supported models are asked, the channel's choice first
    ensures 1 <= |r.models| <= 2 && r.models[0] == ChooseModel(ch.aiModel)
    ensures forall k :: 0 <= k < |r.models| ==> r.models[k] in Supported
    // a retry happens only after "model not found", and with the safe model
    ensures |r.models| == 2 <==> o.llm(RequestFor(r.models[0], 1, e, ch)) == ModelNotFound
    ensures |r.models| == 2 ==> r.models[1] == SafeModel
    // the error escapes only when the retry fails as well
    ensures r.text.None? <==> |r.models| == 2 && !o.llm(RequestFor(SafeModel, 2, e, ch)).Answer?
  {
    var m := ChooseModel(ch.aiModel);
    match o.llm(RequestFor(m, 1, e, ch))
    case Answer(raw) => Processed(Some(Polish(raw, e, ch.topic, o)), [m])
    case Failure => Processed(Some(FallbackFormat(e.title, e.content, ch.topic, o.translate, o.pick(e))), [m])
    case ModelNotFound => Retry(e, ch, o, m)
  }

  /** The text of a processed entry: the fallback post after any other
      failure of the first call, otherwise the polished answer of the last
      model asked. */
  lemma ProcessedText(e: Entry, ch: Channel, o: Oracles)
    ensures var r := ProcessContent(e, ch, o);
            o.llm(RequestFor(r.models[0], 1, e, ch)) == Failure ==>
              r.text == Some(FallbackFormat(e.title, e.content, ch.topic, o.translate, o.pick(e)))
    ensures var r := ProcessContent(e, ch, o);
            var last := o.llm(RequestFor(r.models[|r.models| - 1], |r.models|, e, ch));
            last.Answer? ==> r.text == Some(Polish(last.text, e, ch.topic, o))
  {
  }

  /** The second attempt after "model not found": the safe model, and no
      fallback when it fails too. */
  function Retry(e: Entry, ch: Channel, o: Oracles, first: string): (r: Processed)
    ensures r.models == [first, SafeModel]
    ensures r.text.None? <==> !o.llm(RequestFor(SafeModel, 2, e, ch)).Answer?
    ensures o.llm(RequestFor(SafeModel, 2, e, ch)).Answer? ==>
              r.text == Some(Polish(o.llm(RequestFor(SafeModel, 2, e, ch)).text, e, ch.topic, o))
  {
    match o.llm(RequestFor(SafeModel, 2, e, ch))
    case Answer(raw) => Processed(Some(Polish(raw, e, ch.topic, o)), [first, SafeModel])
    case _ => Processed(None, [first, SafeModel])
  }

  /** The retry is a new call even when the channel already uses the safe
      model, so it can answer where the first call found no model. */
  lemma SafeModelRetryAnswers(e: Entry, ch: Channel, o: Oracles, raw: string)
    requires ChooseModel(ch.aiModel) == SafeModel
    requires o.llm(RequestFor(SafeModel, 1, e, ch)) == ModelNotFound
    requires o.llm(RequestFor(SafeModel, 2, e, ch)) == Answer(raw)
    ensures ProcessContent(e, ch, o) == Processed(Some(Polish(raw, e, ch.topic, o)), [SafeModel, SafeModel])
  {
  }
}

=== FILE: handlers.dfy ===
/** The store-level logic of the operator's bot commands: the one-off fetch
    that queues a single post, manual publication, approval and rejection,
    clearing a channel's queue, the URL typed for a new feed, and the
    callback data that carries a new model or interval. Telegram I/O is not
    modelled; the feed reader, the duplicate check, the AI processor's
    collaborators and the publisher are parameters. */
module Handlers {
  import opened Wrappers
  import opened Text
  import opened Numbers
  import opened Models
  import opened Queue
  import opened AiProcessor
  import opened Scheduler

  // ---------------------------------------------------------------------------
  // Manual feed URL

  predicate HasHttpScheme(u: string) {
    StartsWith(u, "http://") || StartsWith(u, "https://")
  }

  /** The URL `process_manual_rss` hands to the feed reader: the typed text,
      stripped, with `https://` put in front unless it already names an HTTP
      scheme. */
  function ManualRssUrl(input: string): (r: string)
    // the result always has an HTTP scheme
    ensures HasHttpScheme(r)
    // a typed scheme is kept as it is, otherwise `https://` is added
    ensures HasHttpScheme(Strip(input)) <==> r == Strip(input)
    ensures !HasHttpScheme(Strip(input)) ==> r == "https://" + Strip(input)
  {
    var u := Strip(input);
    if HasHttpScheme(u) then u
    else
      assert ("https://" + u)[..8] == "https://";
      "https://" + u
  }

  /** Typing the URL the bot produced gives the same URL again. */
  lemma ManualRssUrlIdempotent(input: string)
    ensures ManualRssUrl(ManualRssUrl(input)) == ManualRssUrl(input)
  {
    var u := Strip(input);
    var r := ManualRssUrl(input);
    assert r[0] == r[..7][0] == 'h';
    if r != u {
      assert r == "https://" + u;
      assert r[|r| - 1] == '/' || r[|r| - 1] == u[|u| - 1];
    }
    TrimFixed(r, IsSpace);
  }

  // ---------------------------------------------------------------------------
  // Callback data

  /** `set_ai_model`: the channel id is field 2 of the `_`-separated data and
      the model name is fields 3 onwards joined with `-`. `None` stands for
      the `IndexError` or `ValueError` that ends the handler before any
      update. */
  function ParseSetModel(data: string): (r: Option<(int, string)>)
    ensures var f := Split(data, "_");
      && (r.Some? <==> |f| >= 3 && ParseInt(f[2]).Some?)
      && (r.Some? ==> ParseInt(f[2]) == Some(r.value.0))
    // the stored name never holds an underscore
    ensures r.Some? ==> '_' !in r.value.1
  {
    var f := Split(data, "_");
    if |f| < 3 then None
    else match ParseInt(f[2])
      case None => None
      case Some(id) =>
        JoinAvoids(f[3..], "-", '_');
        Some((id, Join(f[3..], "-")))
  }

  /** The data the model menu sends for channel `id` and model `m`. */
  function SetModelData(id: int, m: string): string {
    "set_model_" + Show(id) + "_" + m
  }

  /** Parsing the menu's data gives back the channel and the model, with
      every underscore of the model name turned into a hyphen. */
  lemma {:induction false} SetModelRoundTrip(id: int, m: string)
    ensures ParseSetModel(SetModelData(id, m)) == Some((id, Join(Split(m, "_"), "-")))
  {
    ModelDataFields(id, m);
    var f := Split(SetModelData(id, m), "_");
    assert f[3..] == Split(m, "_");
    ParseShow(id);
  }

  /** The menu's data splits at underscores into "set", "model", the id and
      the pieces of the model name. */
  lemma ModelDataFields(id: int, m: string)
    ensures Split(SetModelData(id, m), "_") == ["set", "model", Show(id)] + Split(m, "_")
  {
    var s := Show(id);
    var t1 := s + ['_'] + m;
    var t2 := "model" + ['_'] + t1;
    assert '_' !in s;
    assert SetModelData(id, m) == "set" + ['_'] + t2;
    SplitAtFirst(s, '_', m);
    SplitAtFirst("model", '_', t1);
    SplitAtFirst("set", '_', t2);
    assert ["set"] + (["model"] + ([s] + Split(m, "_"))) == ["set", "model", s] + Split(m, "_");
  }

  /** A model name without underscores arrives unchanged. */
  lemma SetModelKeepsPlainName(id: int, m: string)
    requires '_' !in m
    ensures ParseSetModel(SetModelData(id, m)) == Some((id, m))
  {
    SetModelRoundTrip(id, m);
    SplitNoSep(m, '_');
  }

  /** `set_schedule`: the data must split at `_` into exactly four fields,
      the last two integers; anything else is the `ValueError` the handler
      reports without an update. */
  function ParseSetInterval(data: string): (r: Option<(int, int)>)
    ensures var f := Split(data, "_");
      && (r.Some? <==> |f| == 4 && ParseInt(f[2]).Some? && ParseInt(f[3]).Some?)
      && (r.Some? ==> ParseInt(f[2]) == Some(r.value.0) && ParseInt(f[3]) == Some(r.value.1))
  {
    var f := Split(data, "_");
    if |f| != 4 then None
    else match (ParseInt(f[2]), ParseInt(f[3]))
      case (Some(id), Some(n)) => Some((id, n))
      case _ => None
  }

  /** The data the schedule menu sends for channel `id` and interval `n`. */
  function SetIntervalData(id: int, n: int): string {
    "set_interval_" + Show(id) + "_" + Show(n)
  }

  /** Parsing the menu's data gives back the channel and the interval. */
  lemma {:induction false} SetIntervalRoundTrip(id: int, n: int)
    ensures ParseSetInterval(SetIntervalData(id, n)) == Some((id, n))
  {
    IntervalDataFields(id, n);
    ParseShow(id);
    ParseShow(n);
  }

  /** The menu's data splits at underscores into its four fields. */
  lemma IntervalDataFields(id: int, n: int)
    ensures Split(SetIntervalData(id, n), "_") == ["set", "interval", Show(id), Show(n)]
  {
    var s, t := Show(id), Show(n);
    assert '_' !in s && '_' !in t;
    assert SetIntervalData(id, n) == "set" + ['_'] + ("interval" + ['_'] + (s + ['_'] + t));
    SplitNoSep(t, '_');
    SplitAtFirst(s, '_', t);
    SplitAtFirst("interval", '_', s + ['_'] + t);
    SplitAtFirst("set", '_', "interval" + ['_'] + (s + ['_'] + t));
  }

  /** Nothing rejects a negative interval: `int` reads the sign, and the
      value reaches the channel row. */
  lemma NegativeIntervalAccepted()
    ensures ParseSetInterval("set_interval_1_-60") == Some((1, -60))
  {
    assert Show(1) == "1" by {
      assert Show(1) == ShowNat(1) == [DigitChar(1)];
    }
    assert Show(-60) == "-60" by {
      assert ShowNat(6) == [DigitChar(6)] == "6";
      assert ShowNat(60) == ShowNat(6) + [DigitChar(0)] == "60";
    }
    assert SetIntervalData(1, -60) == "set_interval_1_-60";
    SetIntervalRoundTrip(1, -60);
  }

  /** `update_channel_settings(channel_id, post_interval=n)` on the rows with
      that id. */
  function SetInterval(channels: seq<Channel>, id: int, n: int): (r: seq<Channel>)
    ensures |r| == |channels|
    ensures forall k :: 0 <= k < |channels| ==>
              r[k] == if channels[k].id == id then channels[k].(postInterval := n) else channels[k]
  {
    if |channels| == 0 then []
    else
      var c := channels[0];
      [if c.id == id then c.(postInterval := n) else c] + SetInterval(channels[1..], id, n)
  }

  /** The whole `set_schedule` handler on the channel table. */
  function SetSchedule(channels: seq<Channel>, data: string): (r: seq<Channel>)
    ensures ParseSetInterval(data).None? ==> r == channels
    ensures ParseSetInterval(data).Some? ==>
              r == SetInterval(channels, ParseSetInterval(data).value.0, ParseSetInterval(data).value.1)
  {
    match ParseSetInterval(data)
    case None => channels
    case Some((id, n)) => SetInterval(channels, id, n)
  }

  /** A valid interval keeps every interval non-negative, which the
      scheduler needs to keep the queue ordered; a crafted negative one
      does not. */
  lemma SetScheduleIntervals(channels: seq<Channel>, id: int, n: int)
    requires IntervalsOk(channels)
    requires exists k :: 0 <= k < |channels| && channels[k].id == id
    ensures IntervalsOk(SetSchedule(channels, SetIntervalData(id, n))) <==> n >= 0
  {
    SetIntervalRoundTrip(id, n);
    var r := SetSchedule(channels, SetIntervalData(id, n));
    var k :| 0 <= k < |channels| && channels[k].id == id;
    assert r[k].postInterval == n;
  }

  // ---------------------------------------------------------------------------
  // Picking the next post of a channel

  /** A pending post of channel `ch`. */
  predicate Queued(p: Post, ch: int) {
    p.channelId == ch && p.status == Pending
  }

  /** `ORDER BY scheduled_time` ascending: PostgreSQL puts NULL after every
      time. */
  predicate TimeLe(a: Option<int>, b: Option<int>) {
    b.None? || (a.Some? && a.value <= b.value)
  }

  /** `publish_next_post`'s query: the pending post of the channel with the
      smallest time; among equal times the one stored first. */
  function NextPending(posts: seq<Post>, ch: int): (r: Option<nat>)
    ensures r.None? <==> forall k :: 0 <= k < |posts| ==> !Queued(posts[k], ch)
    ensures r.Some? ==> r.value < |posts| && Queued(posts[r.value], ch)
    ensures r.Some? ==> forall k :: 0 <= k < |posts| && Queued(posts[k], ch) ==>
              && TimeLe(posts[r.value].scheduledTime, posts[k].scheduledTime)
              && (k < r.value ==> !TimeLe(posts[k].scheduledTime, posts[r.value].scheduledTime))
    decreases |posts|
  {
    if |posts| == 0 then None
    else
      var init := posts[..|posts| - 1];
      var rest := NextPending(init, ch);
      var last := posts[|posts| - 1];
      assert forall k :: 0 <= k < |init| ==> init[k] == posts[k];
      if !Queued(last, ch) then rest
      else if rest.None? || !TimeLe(posts[rest.value].scheduledTime, last.scheduledTime) then Some(|posts| - 1)
      else rest
  }

  /** The first pending post of the channel in storage order. */
  function FirstPending(posts: seq<Post>, ch: int): (r: Option<nat>)
    ensures r.None? <==> forall k :: 0 <= k < |posts| ==> !Queued(posts[k], ch)
    ensures r.Some? ==> r.value < |posts| && Queued(posts[r.value], ch)
    ensures r.Some? ==> forall k :: 0 <= k < r.value ==> !Queued(posts[k], ch)
  {
    if |posts| == 0 then None
    else if Queued(posts[0], ch) then Some(0)
    else match FirstPending(posts[1..], ch)
      case None => None
      case Some(k) => Some(k + 1)
  }

  /** In a queue that keeps the invariant the schedule order is the order
      of creation: the next post is the oldest pending one. */
  lemma OldestIsNext(posts: seq<Post>, ch: int)
    requires QueueInvariant(posts)
    ensures NextPending(posts, ch) == FirstPending(posts, ch)
  {
    var a, b := NextPending(posts, ch), FirstPending(posts, ch);
    if a.Some? {
      assert b.value <= a.value;
      if b.value < a.value {
        assert TimeLe(posts[b.value].scheduledTime, posts[a.value].scheduledTime);
      }
    }
  }

  // ---------------------------------------------------------------------------
  // Manual publication, approval, rejection

  /** What an operator-triggered publication reports. */
  datatype Report =
    | NoPost              // nothing to publish, or no post with that id
    | NoChannel           // the post's channel row is missing: the handler raises
    | Sent(messageId: int)
    | NotSent             // the publisher gave no message id

  datatype Manual = Manual(posts: seq<Post>, report: Report, publishCalls: nat)

  /** The publication step shared by the manual handlers: one publish call,
      and the post becomes published only when a message id comes back. */
  function SendNow(posts: seq<Post>, channels: seq<Channel>, p: Post, publish: Publisher): (r: Manual)
    ensures |r.posts| == |posts| && r.publishCalls <= 1
    ensures FindChannel(channels, p.channelId).None? ==> r == Manual(posts, NoChannel, 0)
    ensures FindChannel(channels, p.channelId).Some? ==> r.publishCalls == 1
    // a message id publishes the post under that id; no id changes nothing
    ensures r.report.Sent? <==> FindChannel(channels, p.channelId).Some? && Truthy(publish(p))
    ensures r.report.Sent? ==> r.posts == SetStatus(posts, p.id, Published, Some(r.report.messageId))
                               && publish(p) == Some(r.report.messageId)
    ensures !r.report.Sent? ==> r.posts == posts
    ensures QueueInvariant(posts) ==> QueueInvariant(r.posts)
  {
    if FindChannel(channels, p.channelId).None? then Manual(posts, NoChannel, 0)
    else
      var id := publish(p);
      if Truthy(id) then Manual(SetStatus(posts, p.id, Published, id), Sent(id.value), 1)
      else Manual(posts, NotSent, 1)
  }

  /** `publish_next_post`: the channel's next pending post is sent at once,
      whatever the channel's activity or moderation setting. */
  function PublishNextPost(posts: seq<Post>, channels: seq<Channel>, ch: int, publish: Publisher): (r: Manual)
    ensures NextPending(posts, ch).None? ==> r == Manual(posts, NoPost, 0)
    ensures NextPending(posts, ch).Some? ==> r == SendNow(posts, channels, posts[NextPending(posts, ch).value], publish)
    ensures QueueInvariant(posts) ==> QueueInvariant(r.posts)
  {
    match NextPending(posts, ch)
    case None => Manual(posts, NoPost, 0)
    case Some(k) => SendNow(posts, channels, posts[k], publish)
  }

  /** `publish_specific_post` and `approve_post`, which do the same to the
      store: the post with that id is sent, whatever its status. */
  function PublishPost(posts: seq<Post>, channels: seq<Channel>, id: int, publish: Publisher): (r: Manual)
    ensures FindPost(posts, id).None? ==> r == Manual(posts, NoPost, 0)
    ensures FindPost(posts, id).Some? ==> r == SendNow(posts, channels, posts[FindPost(posts, id).value], publish)
    ensures QueueInvariant(posts) ==> QueueInvariant(r.posts)
  {
    match FindPost(posts, id)
    case None => Manual(posts, NoPost, 0)
    case Some(k) => SendNow(posts, channels, posts[k], publish)
  }

  /** A failed manual publication leaves the post pending, where the
      publishing tick marks the same failure `failed`. */
  lemma ManualFailureStaysPending(posts: seq<Post>, channels: seq<Channel>, ch: int, publish: Publisher)
    requires UniqueIds(posts)
    requires NextPending(posts, ch).Some?
    requires var p := posts[NextPending(posts, ch).value];
             && FindChannel(channels, ch).Some? && FindChannel(channels, ch).value.isActive
             && !FindChannel(channels, ch).value.moderationMode && !Truthy(publish(p))
    ensures var k := NextPending(posts, ch).value;
            && PublishNextPost(posts, channels, ch, publish).posts[k].status == Pending
            && PublishTick(posts, channels, [posts[k]], publish).posts[k].status == Failed
  {
  }

  /** Manual publication ignores moderation mode: the post goes out without
      passing through `moderation`. */
  lemma ManualBypassesModeration(posts: seq<Post>, channels: seq<Channel>, ch: int, publish: Publisher)
    requires NextPending(posts, ch).Some?
    requires var p := posts[NextPending(posts, ch).value];
             FindChannel(channels, ch).Some? && FindChannel(channels, ch).value.moderationMode && Truthy(publish(p))
    ensures var k := NextPending(posts, ch).value;
            PublishNextPost(posts, channels, ch, publish).posts[k].status == Published
  {
  }

  /** Approval does not look at the status: a rejected post is published
      when the publisher returns an id. */
  lemma ApproveRejected(posts: seq<Post>, channels: seq<Channel>, id: int, publish: Publisher)
    requires FindPost(posts, id).Some?
    requires var p := posts[FindPost(posts, id).value];
             p.status == Rejected && FindChannel(channels, p.channelId).Some? && Truthy(publish(p))
    ensures var k := FindPost(posts, id).value;
            PublishPost(posts, channels, id, publish).posts[k].status == Published
  {
  }

  /** `reject_post`: `update_post_status(id, "rejected")`; the flag says
      whether a row had that id. */
  function RejectPost(posts: seq<Post>, id: int): (r: (seq<Post>, bool))
    ensures r.1 <==> exists k :: 0 <= k < |posts| && posts[k].id == id
    ensures |r.0| == |posts|
    ensures forall k :: 0 <= k < |posts| ==>
              if posts[k].id == id then r.0[k] == posts[k].(status := Rejected) else r.0[k] == posts[k]
    ensures QueueInvariant(posts) ==> QueueInvariant(r.0)
  {
    (SetStatus(posts, id, Rejected, None), FindPost(posts, id).Some?)
  }

  /** Rejecting twice is rejecting once. */
  lemma RejectIdempotent(posts: seq<Post>, id: int)
    ensures RejectPost(RejectPost(posts, id).0, id).0 == RejectPost(posts, id).0
  {
  }

  // ---------------------------------------------------------------------------
  // Clearing a queue

  /** `clear_queue_execute`: the pending posts of the channel are deleted,
      the rest kept in order. */
  function ClearQueue(posts: seq<Post>, ch: int): (r: seq<Post>)
    ensures |r| <= |posts|
    // nothing pending for the channel survives ...
    ensures forall k :: 0 <= k < |r| ==> r[k] in posts && !Queued(r[k], ch)
    // ... and every other post does
    ensures forall k :: 0 <= k < |posts| && !Queued(posts[k], ch) ==> posts[k] in r
  {
    if |posts| == 0 then []
    else
      var rest := ClearQueue(posts[1..], ch);
      assert forall k :: 1 <= k < |posts| ==> posts[k] == posts[1..][k - 1];
      if Queued(posts[0], ch) then rest else [posts[0]] + rest
  }

  /** The survivors keep their order: clearing a queue stored in two parts
      clears each part and keeps the first part's survivors first. */
  lemma {:induction false} ClearQueueKeepsOrder(a: seq<Post>, b: seq<Post>, ch: int)
    ensures ClearQueue(a + b, ch) == ClearQueue(a, ch) + ClearQueue(b, ch)
  {
    if |a| == 0 {
      assert a + b == b;
    } else {
      assert (a + b)[1..] == a[1..] + b;
      ClearQueueKeepsOrder(a[1..], b, ch);
    }
  }

  /** The number of pending posts of the channel: what the handler reports
      as deleted. */
  function CountQueued(posts: seq<Post>, ch: int): (n: nat)
    ensures n <= |posts|
    ensures n == 0 <==> forall k :: 0 <= k < |posts| ==> !Queued(posts[k], ch)
  {
    if |posts| == 0 then 0
    else
      assert forall k :: 1 <= k < |posts| ==> posts[k] == posts[1..][k - 1];
      (if Queued(posts[0], ch) then 1 else 0) + CountQueued(posts[1..], ch)
  }

  /** The deletion removes exactly the counted posts. */
  lemma {:induction false} ClearQueueCount(posts: seq<Post>, ch: int)
    ensures |ClearQueue(posts, ch)| + CountQueued(posts, ch) == |posts|
  {
    if |posts| > 0 {
      ClearQueueCount(posts[1..], ch);
    }
  }

  /** After clearing, publishing the channel's next post finds nothing. */
  lemma ClearedQueueIsEmpty(posts: seq<Post>, channels: seq<Channel>, ch: int, publish: Publisher)
    ensures PublishNextPost(ClearQueue(posts, ch), channels, ch, publish).report == NoPost
  {
  }

  /** `q` may come after `p` in a queue: another id, and not earlier when
      the channel is the same. */
  predicate Precedes(p: Post, q: Post) {
    && Timed(p) && Timed(q) && q.id != p.id
    && (q.channelId == p.channelId ==> p.scheduledTime.value <= q.scheduledTime.value)
  }

  lemma UnconsInvariant(posts: seq<Post>)
    requires QueueInvariant(posts) && |posts| > 0
    ensures QueueInvariant(posts[1..])
    ensures forall q :: q in posts[1..] ==> Precedes(posts[0], q)
  {
    var tail := posts[1..];
    assert forall k :: 0 <= k < |tail| ==> tail[k] == posts[k + 1];
  }

  lemma ConsInvariant(p: Post, rest: seq<Post>)
    requires Timed(p) && QueueInvariant(rest)
    requires forall k :: 0 <= k < |rest| ==> Precedes(p, rest[k])
    ensures QueueInvariant([p] + rest)
  {
    var r := [p] + rest;
    assert forall k :: 0 < k < |r| ==> r[k] == rest[k - 1];
  }

  /** Deleting posts keeps the queue invariant. */
  lemma {:induction false} ClearQueueKeepsInvariant(posts: seq<Post>, ch: int)
    requires QueueInvariant(posts)
    ensures QueueInvariant(ClearQueue(posts, ch))
  {
    if |posts| > 0 {
      UnconsInvariant(posts);
      ClearQueueKeepsInvariant(posts[1..], ch);
      var rest := ClearQueue(posts[1..], ch);
      if !Queued(posts[0], ch) {
        assert forall k :: 0 <= k < |rest| ==> rest[k] in posts[1..];
        ConsInvariant(posts[0], rest);
      }
    }
  }

  // ---------------------------------------------------------------------------
  // The one-off fetch

  /** `entries[:3]`. */
  function FirstThree(entries: seq<Entry>): (r: seq<Entry>)
    ensures |r| <= 3 && |r| <= |entries| && r == entries[..|r|]
    ensures |r| == 3 || r == entries
  {
    if |entries| <= 3 then entries else entries[..3]
  }

  /** The channel's active sources, in the order the rows are stored. The
      query has no `ORDER BY`; the model takes the stored order for the order
      the database returns. */
  function ActiveSourcesOf(sources: seq<Source>, ch: int): (r: seq<Source>)
    ensures |r| <= |sources|
    ensures forall k :: 0 <= k < |r| ==> r[k] in sources && r[k].channelId == ch && r[k].isActive
    ensures forall k :: 0 <= k < |sources| && sources[k].channelId == ch && sources[k].isActive ==> sources[k] in r
  {
    if |sources| == 0 then []
    else
      var rest := ActiveSourcesOf(sources[1..], ch);
      assert forall k :: 1 <= k < |sources| ==> sources[k] == sources[1..][k - 1];
      if sources[0].channelId == ch && sources[0].isActive then [sources[0]] + rest else rest
  }

  /** No feed read raises. */
  predicate AllFetched(srcs: seq<Source>, fetch: string -> Feed) {
    forall k :: 0 <= k < |srcs| ==> fetch(srcs[k].url).Fetched?
  }

  /** Every feed read returns no entries. */
  predicate AllEmpty(srcs: seq<Source>, fetch: string -> Feed) {
    forall k :: 0 <= k < |srcs| ==> fetch(srcs[k].url) == Fetched([])
  }

  /** The entries the one-off fetch looks at: the first three of every
      source, source by source; `None` when a fetch raises. `fetch` stands
      for `parse_feed` on a URL, with no last identifier. */
  function Candidates(srcs: seq<Source>, fetch: string -> Feed): (r: Option<seq<Entry>>)
    ensures r.Some? <==> AllFetched(srcs, fetch)
  {
    if |srcs| == 0 then Some([])
    else
      var rest := Candidates(srcs[1..], fetch);
      assert forall k :: 1 <= k < |srcs| ==> srcs[k] == srcs[1..][k - 1];
      match fetch(srcs[0].url)
      case FetchError => None
      case Fetched(es) =>
        if rest.None? then None else Some(FirstThree(es) + rest.value)
  }

  /** At most three entries per source are looked at, and none at all
      exactly when every source returned an empty list. */
  lemma {:induction false} CandidatesBounds(srcs: seq<Source>, fetch: string -> Feed)
    requires AllFetched(srcs, fetch)
    ensures |Candidates(srcs, fetch).value| <= 3 * |srcs|
    ensures Candidates(srcs, fetch).value == [] <==> AllEmpty(srcs, fetch)
  {
    if |srcs| > 0 {
      assert forall k :: 1 <= k < |srcs| ==> srcs[k] == srcs[1..][k - 1];
      CandidatesBounds(srcs[1..], fetch);
      CandidatesCons(srcs, fetch);
    }
  }

  /** One step of `Candidates`: the first source's three entries, then the
      rest. */
  lemma CandidatesCons(a: seq<Source>, fetch: string -> Feed)
    requires |a| > 0 && fetch(a[0].url).Fetched? && Candidates(a[1..], fetch).Some?
    ensures Candidates(a, fetch) == Some(FirstThree(fetch(a[0].url).entries) + Candidates(a[1..], fetch).value)
  {
  }

  /** Sources are looked at in list order: the candidates of a list of
      sources are those of its first part followed by those of the rest. */
  lemma {:induction false} CandidatesInSourceOrder(a: seq<Source>, b: seq<Source>, fetch: string -> Feed)
    requires Candidates(a, fetch).Some? && Candidates(b, fetch).Some?
    ensures Candidates(a + b, fetch) == Some(Candidates(a, fetch).value + Candidates(b, fetch).value)
  {
    if |a| == 0 {
      assert a + b == b;
      assert Candidates(a, fetch) == Some([]);
      assert [] + Candidates(b, fetch).value == Candidates(b, fetch).value;
    } else {
      var es := fetch(a[0].url).entries;
      var ca, cb := Candidates(a[1..], fetch).value, Candidates(b, fetch).value;
      CandidatesCons(a, fetch);
      CandidatesInSourceOrder(a[1..], b, fetch);
      CandidatesAppendStep(a, b, fetch, es, ca, cb);
    }
  }

  /** The inductive step of `CandidatesInSourceOrder`: from the rest of `a`
      followed by `b` to all of `a` followed by `b`. */
  lemma CandidatesAppendStep(a: seq<Source>, b: seq<Source>, fetch: string -> Feed,
                             es: seq<Entry>, ca: seq<Entry>, cb: seq<Entry>)
    requires |a| > 0 && fetch(a[0].url) == Fetched(es)
    requires Candidates(a[1..] + b, fetch) == Some(ca + cb)
    ensures Candidates(a + b, fetch) == Some((FirstThree(es) + ca) + cb)
  {
    var ab := a + b;
    assert ab[0] == a[0];
    assert ab[1..] == a[1..] + b;
    assert FirstThree(es) + (ca + cb) == (FirstThree(es) + ca) + cb;
  }

  /** The first candidate `check_post_duplicate` does not flag. */
  function FirstFresh(cands: seq<Entry>, posts: seq<Post>, ch: int, dup: DuplicateCheck): (r: Option<nat>)
    ensures r.None? <==> forall k :: 0 <= k < |cands| ==> dup(posts, ch, cands[k])
    ensures r.Some? ==> r.value < |cands| && !dup(posts, ch, cands[r.value])
    ensures r.Some? ==> forall k :: 0 <= k < r.value ==> dup(posts, ch, cands[k])
  {
    if |cands| == 0 then None
    else if !dup(posts, ch, cands[0]) then Some(0)
    else match FirstFresh(cands[1..], posts, ch, dup)
      case None => None
      case Some(k) => Some(k + 1)
  }

  /** How the one-off fetch ends. */
  datatype OneOff =
    | ChannelMissing
    | NoSources
    | FetchFailed        // a feed read raised
    | NothingNew         // every active source returned no entries
    | AllSeen            // every candidate is a duplicate
    | ProcessingFailed   // processing the chosen entry raised
    | Enqueued

  datatype Fetch = Fetch(posts: seq<Post>, report: OneOff)

  /** The one-off fetch reaches a fresh candidate: the channel exists, it has
      active sources, no feed read raises, and some candidate is not a
      duplicate. */
  predicate HasFresh(posts: seq<Post>, channels: seq<Channel>, sources: seq<Source>, ch: int,
                     fetch: string -> Feed, dup: DuplicateCheck) {
    && FindChannel(channels, ch).Some?
    && ActiveSourcesOf(sources, ch) != []
    && Candidates(ActiveSourcesOf(sources, ch), fetch).Some?
    && FirstFresh(Candidates(ActiveSourcesOf(sources, ch), fetch).value, posts, ch, dup).Some?
  }

  /** That candidate. */
  function FreshEntry(posts: seq<Post>, channels: seq<Channel>, sources: seq<Source>, ch: int,
                      fetch: string -> Feed, dup: DuplicateCheck): Entry
    requires HasFresh(posts, channels, sources, ch, fetch, dup)
  {
    var cands := Candidates(ActiveSourcesOf(sources, ch), fetch).value;
    cands[FirstFresh(cands, posts, ch, dup).value]
  }

  /** `create_post_start` for channel `ch`: one fresh entry among the newest
      three of each active source is processed and queued by the placement
      rule, recorded under the first active source's URL. */
  function CreatePostStart(posts: seq<Post>, channels: seq<Channel>, sources: seq<Source>, ch: int,
                           fetch: string -> Feed, dup: DuplicateCheck, o: Oracles, now: int): (r: Fetch)
    // only a queued post changes the store, and it is added at the end
    ensures r.report != Enqueued ==> r.posts == posts
    ensures r.report == Enqueued ==> |r.posts| == |posts| + 1 && r.posts[..|posts|] == posts
    // the early exits, in the handler's order
    ensures r.report == ChannelMissing <==> FindChannel(channels, ch).None?
    ensures r.report == NoSources <==> FindChannel(channels, ch).Some? && ActiveSourcesOf(sources, ch) == []
    ensures r.report == FetchFailed <==>
              FindChannel(channels, ch).Some? && ActiveSourcesOf(sources, ch) != [] &&
              Candidates(ActiveSourcesOf(sources, ch), fetch).None?
    ensures r.report == NothingNew <==>
              FindChannel(channels, ch).Some? && ActiveSourcesOf(sources, ch) != [] &&
              AllFetched(ActiveSourcesOf(sources, ch), fetch) && AllEmpty(ActiveSourcesOf(sources, ch), fetch)
    ensures r.report == AllSeen <==>
              FindChannel(channels, ch).Some? && ActiveSourcesOf(sources, ch) != [] &&
              var cands := Candidates(ActiveSourcesOf(sources, ch), fetch);
              cands.Some? && |cands.value| > 0 && forall k :: 0 <= k < |cands.value| ==> dup(posts, ch, cands.value[k])
    // a fresh candidate is queued exactly when its processing gives a text
    ensures r.report == Enqueued <==>
              HasFresh(posts, channels, sources, ch, fetch, dup) &&
              ProcessContent(FreshEntry(posts, channels, sources, ch, fetch, dup), FindChannel(channels, ch).value, o).text.Some?
    ensures r.report == ProcessingFailed <==>
              HasFresh(posts, channels, sources, ch, fetch, dup) &&
              ProcessContent(FreshEntry(posts, channels, sources, ch, fetch, dup), FindChannel(channels, ch).value, o).text.None?
    // the queued post is the first fresh candidate, whichever source it came from
    ensures r.report == Enqueued ==>
              var e := FreshEntry(posts, channels, sources, ch, fetch, dup);
              var c := FindChannel(channels, ch).value;
              r.posts[|posts|] == NewPost(posts, c, ActiveSourcesOf(sources, ch)[0].url, e,
                                          ProcessContent(e, c, o).text.value, now)
    // the one-off fetch keeps the queue invariant, and its post lies in the future
    ensures QueueInvariant(posts) && IntervalsOk(channels) ==>
              QueueInvariant(r.posts) && (r.report == Enqueued ==> r.posts[|posts|].scheduledTime.value > now)
  {
    match FindChannel(channels, ch)
    case None => Fetch(posts, ChannelMissing)
    case Some(c) =>
      var srcs := ActiveSourcesOf(sources, ch);
      if srcs == [] then Fetch(posts, NoSources)
      else match Candidates(srcs, fetch)
        case None => Fetch(posts, FetchFailed)
        case Some(cands) =>
          CandidatesBounds(srcs, fetch);
          if cands == [] then Fetch(posts, NothingNew)
          else match FirstFresh(cands, posts, ch, dup)
            case None => Fetch(posts, AllSeen)
            case Some(k) =>
              var e := cands[k];
              match ProcessContent(e, c, o).text
              case None => Fetch(posts, ProcessingFailed)
              case Some(text) =>
                assert c in channels;
                Fetch(Enqueue(posts, c, srcs[0].url, e, text, now), Enqueued)
  }

  /** Unlike the feed check, the one-off fetch has no media filter: a fresh
      entry without media is queued all the same. Shown for a channel with
      one active source whose feed holds that entry alone, and a model that
      answers. */
  lemma OneOffQueuesWithoutMedia(posts: seq<Post>, c: Channel, s: Source,
                                 fetch: string -> Feed, dup: DuplicateCheck, o: Oracles, now: int, e: Entry)
    requires s.channelId == c.id && s.isActive
    requires fetch(s.url) == Fetched([e])
    requires e.media == [] && !dup(posts, c.id, e)
    requires o.llm(RequestFor(ChooseModel(c.aiModel), 1, e, c)).Answer?
    ensures var r := CreatePostStart(posts, [c], [s], c.id, fetch, dup, o, now);
            r.report == Enqueued && r.posts[|posts|].media == []
            && !Accepts(posts, c, e, dup)
  {
    var srcs := ActiveSourcesOf([s], c.id);
    assert srcs == [s];
    SingleSourceCandidates(srcs, fetch, [e]);
    assert FirstFresh([e], posts, c.id, dup) == Some(0);
  }

  /** One source whose feed holds at most three entries offers exactly
      those entries. */
  lemma SingleSourceCandidates(srcs: seq<Source>, fetch: string -> Feed, es: seq<Entry>)
    requires |srcs| == 1 && fetch(srcs[0].url) == Fetched(es) && |es| <= 3
    ensures Candidates(srcs, fetch) == Some(es)
  {
    assert Candidates(srcs[1..], fetch) == Some([]);
    assert es + [] == es;
  }
}

=== FILE: models.dfy ===
/** The records the pipeline reads and writes: channels, their feed sources,
    the posts queued for them, and the entries a feed returns. Times are whole
    seconds; a post's `scheduledTime` is `None` where the database column
    would hold NULL. */
module Models {
  import opened Wrappers

  /** The five values of a post's `status` column. */
  datatype Status = Pending | Moderation | Published | Rejected | Failed

  datatype Channel = Channel(
    id: int,
    handle: string,            // the Telegram destination the publisher posts to
    topic: string,
    isActive: bool,
    moderationMode: bool,
    postInterval: int,         // seconds between two queued posts
    aiModel: Option<string>,
    aiPrompt: Option<string>)

  datatype Source = Source(
    id: int,
    channelId: int,
    url: string,
    isActive: bool,
    lastGuid: Option<string>,  // identifier of the newest entry already processed
    hasError: bool)

  /** One item of a parsed feed. */
  datatype Entry = Entry(title: string, content: string, guid: Option<string>, media: seq<string>)

  datatype Post = Post(
    id: int,
    channelId: int,
    sourceUrl: string,
    title: string,
    content: string,
    processed: string,         // the text that gets published
    media: seq<string>,
    scheduledTime: Option<int>,
    status: Status,
    messageId: Option<int>,
    guid: Option<string>)

  /** The tables the pipeline works on, each in insertion order. */
  datatype Db = Db(channels: seq<Channel>, sources: seq<Source>, posts: seq<Post>)

  /** `query(Channel).filter_by(id=id).first()`. */
  function FindChannel(channels: seq<Channel>, id: int): (r: Option<Channel>)
    ensures r.Some? ==> r.value in channels && r.value.id == id
    ensures r.None? ==> forall k :: 0 <= k < |channels| ==> channels[k].id != id
  {
    if |channels| == 0 then None
    else if channels[0].id == id then Some(channels[0])
    else FindChannel(channels[1..], id)
  }

  /** `query(Post).filter_by(id=id).first()`, as an index into `posts`. */
  function FindPost(posts: seq<Post>, id: int): (r: Option<nat>)
    ensures r.Some? ==> r.value < |posts| && posts[r.value].id == id
    ensures r.None? ==> forall k :: 0 <= k < |posts| ==> posts[k].id != id
  {
    if |posts| == 0 then None
    else if posts[0].id == id then Some(0)
    else match FindPost(posts[1..], id)
      case None => None
      case Some(k) => Some(k + 1)
  }
}

=== FILE: numbers.dfy ===
/** Python's `int(text)` on a `str`, and the decimal rendering `str(n)` that
    inverts it. Callback data and the admin-id list are parsed with `int`. */
module Numbers {
  import opened Wrappers
  import opened Text

  function DigitValue(c: char): nat
    requires IsDigit(c)
  {
    c as int - '0' as int
  }

  function DigitChar(d: nat): (c: char)
    requires d < 10
    ensures IsDigit(c) && DigitValue(c) == d
  {
    ('0' as int + d) as char
  }

  /** The digits of an integer literal: ASCII digits, where a single
      underscore may stand between two digits (`1_000`). */
  predicate DigitGroups(s: string) {
    && DigitsOrUnderscores(s)
    && |s| > 0
    && IsDigit(s[0])
    && IsDigit(s[|s| - 1])
    && forall i :: 0 <= i < |s| ==>
         IsDigit(s[i]) || (s[i] == '_' && 0 < i < |s| - 1 && IsDigit(s[i - 1]) && IsDigit(s[i + 1]))
  }

  predicate DigitsOrUnderscores(s: string) {
    forall i :: 0 <= i < |s| ==> IsDigit(s[i]) || s[i] == '_'
  }

  /** The value of a run of digits, underscores ignored. */
  function DigitsValue(s: string): nat
    requires DigitsOrUnderscores(s)
  {
    if |s| == 0 then 0
    else if s[|s| - 1] == '_' then DigitsValue(s[..|s| - 1])
    else 10 * DigitsValue(s[..|s| - 1]) + DigitValue(s[|s| - 1])
  }

  /** `int(s)` on ASCII text: surrounding whitespace is ignored, one optional
      sign, then groups of ASCII digits; anything else is `None`, standing
      for `ValueError`. Python also reads other Unicode decimal digits, which
      this rejects. */
  function ParseInt(s: string): Option<int> {
    var t := Strip(s);
    if |t| > 0 && (t[0] == '-' || t[0] == '+') then
      var body := t[1..];
      if DigitGroups(body) then Some(if t[0] == '-' then -(DigitsValue(body) as int) else DigitsValue(body))
      else None
    else if DigitGroups(t) then Some(DigitsValue(t))
    else None
  }

  /** `str(n)` for a non-negative `n`: its decimal digits, most significant
      first, without leading zeros. */
  function ShowNat(n: nat): (r: string)
    ensures |r| > 0
    ensures forall i :: 0 <= i < |r| ==> IsDigit(r[i])
  {
    if n < 10 then [DigitChar(n)] else ShowNat(n / 10) + [DigitChar(n % 10)]
  }

  /** `str(n)`. */
  function Show(n: int): (r: string)
    ensures |r| > 0 && IsDigit(r[|r| - 1])
    ensures forall i :: 0 <= i < |r| ==> IsDigit(r[i]) || (i == 0 && r[i] == '-')
  {
    if n < 0 then "-" + ShowNat(-n) else ShowNat(n)
  }

  lemma {:induction false} ShowNatValue(n: nat)
    ensures DigitsValue(ShowNat(n)) == n
  {
    if n >= 10 {
      var s := ShowNat(n);
      ShowNatValue(n / 10);
      assert s[..|s| - 1] == ShowNat(n / 10);
    }
  }

  /** A rendered natural number is a valid digit string. */
  lemma ShowNatGroups(n: nat)
    ensures DigitsOrUnderscores(ShowNat(n)) && DigitGroups(ShowNat(n))
  {
  }

  /** `int(str(n)) == n`. */
  lemma ParseShow(n: int)
    ensures ParseInt(Show(n)) == Some(n)
  {
    StripShow(n);
    if n < 0 {
      ParseShowNegative(n);
    } else {
      ParseShowNatural(n);
    }
  }

  lemma ParseShowNegative(n: int)
    requires n < 0 && Strip(Show(n)) == Show(n)
    ensures ParseInt(Show(n)) == Some(n)
  {
    var s := Show(n);
    var body := ShowNat(-n);
    assert s == "-" + body;
    assert s[0] == '-' && s[1..] == body;
    ShowNatGroups(-n);
    ShowNatValue(-n);
    assert DigitGroups(s[1..]) && DigitsValue(s[1..]) == -n;
    ParseNegative(s);
  }

  lemma ParseShowNatural(n: nat)
    requires Strip(Show(n)) == Show(n)
    ensures ParseInt(Show(n)) == Some(n)
  {
    var s := Show(n);
    assert s == ShowNat(n) && IsDigit(s[0]);
    assert s[0] != '-' && s[0] != '+';
    ShowNatGroups(n);
    ShowNatValue(n);
    assert DigitGroups(s) && DigitsValue(s) == n;
  }

  lemma ParseNegative(s: string)
    requires Strip(s) == s && |s| > 0 && s[0] == '-' && DigitGroups(s[1..])
    ensures ParseInt(s) == Some(-(DigitsValue(s[1..]) as int))
  {
    var t := Strip(s);
    assert |t| > 0 && t[0] == '-' && t[1..] == s[1..];
  }

  lemma StripShow(n: int)
    ensures Strip(Show(n)) == Show(n)
  {
    var s := Show(n);
    assert !IsSpace(s[0]) && !IsSpace(s[|s| - 1]);
    TrimFixed(s, IsSpace);
  }
}

=== FILE: queue.dfy ===
/** The per-channel publishing queue: where a new post is placed, how a post's
    status is updated, and the invariant every queue operation keeps — post
    ids are distinct, every post has a time, and within a channel the times
    never decrease in creation order. */
module Queue {
  import opened Wrappers
  import opened Models

  /** `timedelta(minutes=5)`: the delay that re-anchors an idle queue. */
  const GracePeriod: int := 300

  predicate Timed(p: Post) {
    p.scheduledTime.Some?
  }

  /** Some post of channel `ch` has a NULL time. */
  predicate HasUntimed(posts: seq<Post>, ch: int) {
    exists k :: 0 <= k < |posts| && posts[k].channelId == ch && !Timed(posts[k])
  }

  /** The largest time among the timed posts of channel `ch`. */
  function MaxTime(posts: seq<Post>, ch: int): (r: Option<int>)
    ensures r.None? ==> forall k :: 0 <= k < |posts| && posts[k].channelId == ch ==> !Timed(posts[k])
    ensures r.Some? ==> exists k :: 0 <= k < |posts| && posts[k].channelId == ch && posts[k].scheduledTime == r
    ensures r.Some? ==> forall k :: 0 <= k < |posts| && posts[k].channelId == ch && Timed(posts[k]) ==>
                          posts[k].scheduledTime.value <= r.value
  {
    if |posts| == 0 then None
    else
      var rest := MaxTime(posts[1..], ch);
      var p := posts[0];
      if p.channelId == ch && Timed(p) && (rest.None? || rest.value <= p.scheduledTime.value) then
        p.scheduledTime
      else if rest.Some? then
        var k :| 0 <= k < |posts[1..]| && posts[1..][k].channelId == ch && posts[1..][k].scheduledTime == rest;
        assert posts[k + 1] == posts[1..][k];
        rest
      else
        None
  }

  /** The `scheduled_time` of the first row of the channel's posts ordered by
      `scheduled_time` descending, `None` when there is no row or that time is
      NULL (PostgreSQL sorts NULL first in descending order). */
  function TailTime(posts: seq<Post>, ch: int): (r: Option<int>)
    ensures r.Some? ==> forall k :: 0 <= k < |posts| && posts[k].channelId == ch ==>
                          Timed(posts[k]) && posts[k].scheduledTime.value <= r.value
    ensures r.Some? ==> exists k :: 0 <= k < |posts| && posts[k].channelId == ch && posts[k].scheduledTime == r
    ensures r.None? && !HasUntimed(posts, ch) ==> forall k :: 0 <= k < |posts| ==> posts[k].channelId != ch
  {
    if HasUntimed(posts, ch) then None else MaxTime(posts, ch)
  }

  /** The placement rule: behind the queue's tail when the tail is still in
      the future, otherwise a grace period from now. */
  function NextSlot(tail: Option<int>, now: int, interval: int): (t: int)
    // chaining: exactly one interval after a future tail
    ensures tail.Some? && tail.value > now ==> t - tail.value == interval
    // re-anchoring: no tail, or a tail already due
    ensures !(tail.Some? && tail.value > now) ==> t - now == GracePeriod
    // with a non-negative interval the slot is in the future and not before the tail
    ensures interval >= 0 ==> t > now && (tail.Some? ==> t >= tail.value)
  {
    if tail.Some? && tail.value > now then tail.value + interval else now + GracePeriod
  }

  // ---------------------------------------------------------------------------
  // The queue invariant

  predicate UniqueIds(posts: seq<Post>) {
    forall i, j :: 0 <= i < j < |posts| ==> posts[i].id != posts[j].id
  }

  predicate AllTimed(posts: seq<Post>) {
    forall k :: 0 <= k < |posts| ==> Timed(posts[k])
  }

  /** Within each channel, times never decrease in creation order. */
  predicate TimeOrdered(posts: seq<Post>)
    requires AllTimed(posts)
  {
    forall i, j :: 0 <= i < j < |posts| && posts[i].channelId == posts[j].channelId ==>
      posts[i].scheduledTime.value <= posts[j].scheduledTime.value
  }

  predicate QueueInvariant(posts: seq<Post>) {
    UniqueIds(posts) && AllTimed(posts) && TimeOrdered(posts)
  }

  /** Under the invariant the tail is the largest time of the channel. */
  lemma TailIsMax(posts: seq<Post>, ch: int)
    requires AllTimed(posts)
    ensures TailTime(posts, ch) == MaxTime(posts, ch)
  {
  }

  /** The tail invariant: a post placed by the rule is strictly in the future
      and not earlier than any post already queued for the channel. */
  lemma PlacementIsQueueTail(posts: seq<Post>, ch: int, now: int, interval: int)
    requires AllTimed(posts)
    requires interval >= 0
    ensures var t := NextSlot(TailTime(posts, ch), now, interval);
            && t > now
            && forall k :: 0 <= k < |posts| && posts[k].channelId == ch ==> posts[k].scheduledTime.value <= t
  {
  }

  /** An id larger than every id in use, as an autoincrement column hands out. */
  function FreshId(posts: seq<Post>): (id: int)
    ensures forall k :: 0 <= k < |posts| ==> posts[k].id < id
  {
    if |posts| == 0 then 1
    else
      var rest := FreshId(posts[1..]);
      assert forall k :: 1 <= k < |posts| ==> posts[k] == posts[1..][k - 1];
      if posts[0].id < rest then rest else posts[0].id + 1
  }

  /** The row `create_post` inserts for entry `e`: a pending post of the
      channel with a fresh id, the time chosen by the placement rule, and the
      processed text. */
  function NewPost(posts: seq<Post>, ch: Channel, sourceUrl: string, e: Entry, text: string, now: int): (p: Post)
    ensures p.channelId == ch.id && p.sourceUrl == sourceUrl && p.status == Pending && p.messageId == None
    ensures p.title == e.title && p.content == e.content && p.guid == e.guid && p.media == e.media
    ensures p.processed == text
    ensures p.scheduledTime == Some(NextSlot(TailTime(posts, ch.id), now, ch.postInterval))
    ensures forall k :: 0 <= k < |posts| ==> posts[k].id != p.id
  {
    var t := NextSlot(TailTime(posts, ch.id), now, ch.postInterval);
    Post(FreshId(posts), ch.id, sourceUrl, e.title, e.content, text, e.media, Some(t), Pending, None, e.guid)
  }

  /** `create_post` with the time chosen by the placement rule: the new row
      goes after the existing ones. */
  function Enqueue(posts: seq<Post>, ch: Channel, sourceUrl: string, e: Entry, text: string, now: int): (r: seq<Post>)
    ensures |r| == |posts| + 1 && r[..|posts|] == posts
    ensures r[|posts|] == NewPost(posts, ch, sourceUrl, e, text, now)
    // both producers keep the queue invariant and put the post in the future
    ensures QueueInvariant(posts) && ch.postInterval >= 0 ==>
      QueueInvariant(r) && r[|posts|].scheduledTime.value > now
  {
    var p := NewPost(posts, ch, sourceUrl, e, text, now);
    var r := posts + [p];
    assert forall k :: 0 <= k < |posts| ==> r[k] == posts[k];
    if QueueInvariant(posts) && ch.postInterval >= 0 then
      PlacementIsQueueTail(posts, ch.id, now, ch.postInterval);
      r
    else
      r
  }

  /** `update_post_status(id, status[, message_id])`: the rows with that id get
      the status, and the message id when one is given; nothing else changes. */
  function SetStatus(posts: seq<Post>, id: int, status: Status, messageId: Option<int>): (r: seq<Post>)
    ensures |r| == |posts|
    ensures forall k :: 0 <= k < |posts| ==>
      if posts[k].id == id then
        r[k] == posts[k].(status := status, messageId := if messageId.Some? then messageId else posts[k].messageId)
      else r[k] == posts[k]
    ensures QueueInvariant(posts) ==> QueueInvariant(r)
  {
    if |posts| == 0 then []
    else
      var p := posts[0];
      var p' := if p.id == id then p.(status := status, messageId := if messageId.Some? then messageId else p.messageId) else p;
      var r := [p'] + SetStatus(posts[1..], id, status, messageId);
      assert forall k :: 1 <= k < |posts| ==> posts[k] == posts[1..][k - 1];
      if QueueInvariant(posts) then
        SameKeysKeepInvariant(posts, r);
        r
      else
        r
  }

  /** Two posts that agree on id, channel and time. */
  predicate SameKeys(p: Post, q: Post) {
    p.id == q.id && p.channelId == q.channelId && p.scheduledTime == q.scheduledTime
  }

  /** The invariant depends only on ids, channels and times. */
  lemma SameKeysKeepInvariant(posts: seq<Post>, r: seq<Post>)
    requires QueueInvariant(posts) && |r| == |posts|
    requires forall k :: 0 <= k < |posts| ==> SameKeys(r[k], posts[k])
    ensures QueueInvariant(r)
  {
  }

  /** A status update changes at most one post when ids are distinct. */
  lemma SetStatusTouchesOne(posts: seq<Post>, id: int, status: Status, messageId: Option<int>, i: nat, j: nat)
    requires UniqueIds(posts)
    requires i < j < |posts|
    ensures var r := SetStatus(posts, id, status, messageId);
            r[i] == posts[i] || r[j] == posts[j]
  {
  }
}

=== FILE: scheduler.dfy ===
/** The two periodic jobs: the feed check, which turns new feed entries into
    queued posts, and the publishing tick, which moves the earliest due post
    one step through its life cycle. The feed reader, the duplicate check, the
    AI processor's collaborators, the pending-post query and the publisher
    are parameters; `now` is the clock reading of the run. */
module Scheduler {
  import opened Wrappers
  import opened Models
  import opened Queue
  import opened AiProcessor

  // ---------------------------------------------------------------------------
  // Feed check

  /** What `parse_feed` gives for a source: the entries newer than its last
      identifier, newest first, or an error. */
  datatype Feed = Fetched(entries: seq<Entry>) | FetchError

  /** `check_post_duplicate` asked with the posts stored so far. */
  type DuplicateCheck = (seq<Post>, int, Entry) -> bool

  /** The entry passes both filters: it has media and is not a duplicate of
      the posts stored so far. */
  predicate Accepts(before: seq<Post>, ch: Channel, e: Entry, dup: DuplicateCheck) {
    |e.media| > 0 && !dup(before, ch.id, e)
  }

  /** Post `n` of `out` is entry `e`, accepted against the posts before it,
      processed, and placed by the placement rule. */
  predicate Created(out: seq<Post>, n: nat, ch: Channel, sourceUrl: string, e: Entry, now: int,
                    dup: DuplicateCheck, process: Processor)
  {
    && n < |out|
    && Accepts(out[..n], ch, e, dup)
    && process(e).Some?
    && out[n] == NewPost(out[..n], ch, sourceUrl, e, process(e).value, now)
  }

  /** `process_content` for the channel at hand: the post text, or `None`
      when an error escapes it. */
  type Processor = Entry -> Option<string>

  /** What the walk did with one entry: not reached, skipped when
      `stored` posts existed, turned into post number `at`, or raised while
      being processed. */
  datatype Fate = Unseen | Skipped(stored: nat) | Made(at: nat) | Raised

  /** Every skipped entry was rejected by a filter against the posts stored
      when it was visited. */
  predicate SkipsJustified(out: seq<Post>, fate: seq<Fate>, entries: seq<Entry>, ch: Channel, dup: DuplicateCheck)
    requires |fate| == |entries|
  {
    forall j :: 0 <= j < |fate| && fate[j].Skipped? ==>
      fate[j].stored <= |out| && !Accepts(out[..fate[j].stored], ch, entries[j], dup)
  }

  /** A skipped entry was judged against the posts that existed before the
      walk and those made from the entries older than it, and no others: an
      entry made from an older entry (higher index) is below `stored`, one made
      from a newer entry is not. */
  predicate SkipsInOrder(posts: seq<Post>, fate: seq<Fate>) {
    && (forall j :: 0 <= j < |fate| && fate[j].Skipped? ==> |posts| <= fate[j].stored)
    && forall j, j' :: (0 <= j < |fate| && 0 <= j' < |fate| && fate[j].Skipped? && fate[j'].Made?) ==>
         (j < j' <==> fate[j'].at < fate[j].stored)
  }

  /** Every entry marked `Made(n)` is post `n`, created by the rule. */
  predicate MadeJustified(posts: seq<Post>, out: seq<Post>, fate: seq<Fate>, entries: seq<Entry>, ch: Channel,
                          sourceUrl: string, now: int, dup: DuplicateCheck, process: Processor)
    requires |fate| == |entries|
  {
    forall j :: 0 <= j < |fate| && fate[j].Made? ==>
      |posts| <= fate[j].at && Created(out, fate[j].at, ch, sourceUrl, entries[j], now, dup, process)
  }

  /** Older entries (higher index) became earlier posts. */
  predicate OldestFirst(fate: seq<Fate>) {
    forall j, j' :: 0 <= j < j' < |fate| && fate[j].Made? && fate[j'].Made? ==> fate[j].at > fate[j'].at
  }

  /** A created post stays created when posts are added after it. */
  lemma CreatedExtends(out: seq<Post>, out': seq<Post>, n: nat, ch: Channel, sourceUrl: string, e: Entry, now: int,
                       dup: DuplicateCheck, process: Processor)
    requires Created(out, n, ch, sourceUrl, e, now, dup, process)
    requires |out| <= |out'| && out'[..|out|] == out
    ensures Created(out', n, ch, sourceUrl, e, now, dup, process)
  {
    assert out'[..n] == out[..n];
  }

  /** Appending a post keeps every earlier verdict justified. */
  lemma ExtendKeepsJustified(posts: seq<Post>, out: seq<Post>, out': seq<Post>, fate: seq<Fate>, entries: seq<Entry>,
                             ch: Channel, sourceUrl: string, now: int, dup: DuplicateCheck, process: Processor)
    requires |fate| == |entries|
    requires SkipsJustified(out, fate, entries, ch, dup)
    requires MadeJustified(posts, out, fate, entries, ch, sourceUrl, now, dup, process)
    requires |out| <= |out'| && out'[..|out|] == out
    ensures SkipsJustified(out', fate, entries, ch, dup)
    ensures MadeJustified(posts, out', fate, entries, ch, sourceUrl, now, dup, process)
  {
    forall j | 0 <= j < |fate| && fate[j].Skipped?
      ensures fate[j].stored <= |out'| && !Accepts(out'[..fate[j].stored], ch, entries[j], dup)
    {
      assert out'[..fate[j].stored] == out[..fate[j].stored];
    }
    forall j | 0 <= j < |fate| && fate[j].Made?
      ensures Created(out', fate[j].at, ch, sourceUrl, entries[j], now, dup, process)
    {
      CreatedExtends(out, out', fate[j].at, ch, sourceUrl, entries[j], now, dup, process);
    }
  }

  /** The state of the walk once the entries from `i` up are visited. */
  predicate Walked(posts: seq<Post>, out: seq<Post>, fate: seq<Fate>, taken: seq<nat>, i: nat, entries: seq<Entry>,
                   ch: Channel, sourceUrl: string, now: int, dup: DuplicateCheck, process: Processor)
  {
    && i <= |entries| && |fate| == |entries|
    && |out| == |posts| + |taken| && out[..|posts|] == posts
    && (forall k :: 0 <= k < |taken| ==> taken[k] < |entries| && fate[taken[k]] == Made(|posts| + k))
    && (forall j :: 0 <= j < i ==> fate[j] == Unseen)
    && (forall j :: i <= j < |entries| ==> fate[j].Skipped? || (fate[j].Made? && fate[j].at < |out|))
    && SkipsJustified(out, fate, entries, ch, dup)
    && SkipsInOrder(posts, fate)
    && MadeJustified(posts, out, fate, entries, ch, sourceUrl, now, dup, process)
    && OldestFirst(fate)
  }

  /** Skipping entry `i - 1` continues the walk. */
  lemma SkipStep(posts: seq<Post>, out: seq<Post>, fate: seq<Fate>, taken: seq<nat>, i: nat, entries: seq<Entry>,
                 ch: Channel, sourceUrl: string, now: int, dup: DuplicateCheck, process: Processor)
    requires Walked(posts, out, fate, taken, i, entries, ch, sourceUrl, now, dup, process)
    requires i > 0 && !Accepts(out, ch, entries[i - 1], dup)
    ensures Walked(posts, out, fate[i - 1 := Skipped(|out|)], taken, i - 1, entries, ch, sourceUrl, now, dup, process)
  {
    assert out[..|out|] == out;
  }

  /** Turning entry `i - 1` into a post continues the walk. */
  lemma TakeStep(posts: seq<Post>, out: seq<Post>, fate: seq<Fate>, taken: seq<nat>, i: nat, entries: seq<Entry>,
                 ch: Channel, sourceUrl: string, now: int, dup: DuplicateCheck, process: Processor, out': seq<Post>)
    requires Walked(posts, out, fate, taken, i, entries, ch, sourceUrl, now, dup, process)
    requires i > 0 && Accepts(out, ch, entries[i - 1], dup) && process(entries[i - 1]).Some?
    requires out' == Enqueue(out, ch, sourceUrl, entries[i - 1], process(entries[i - 1]).value, now)
    ensures Walked(posts, out', fate[i - 1 := Made(|out|)], taken + [i - 1], i - 1, entries, ch, sourceUrl, now, dup, process)
  {
    ExtendKeepsJustified(posts, out, out', fate, entries, ch, sourceUrl, now, dup, process);
    assert out'[..|out|] == out && out'[..|posts|] == posts;
    assert Created(out', |out|, ch, sourceUrl, entries[i - 1], now, dup, process);
  }

  /** The record of a walk: `fate` says what happened to each entry and
      `taken` lists the entries that became posts, in the order the posts
      were created; `aborted` says that processing entry `stop` raised, which
      ended the walk. */
  datatype Walk = Walk(fate: seq<Fate>, taken: seq<nat>, stop: nat, aborted: bool)

  /** Walk `w` over `entries` turned `posts` into `out`. */
  predicate Ingested(posts: seq<Post>, out: seq<Post>, w: Walk, entries: seq<Entry>, ch: Channel, sourceUrl: string,
                     now: int, dup: DuplicateCheck, process: Processor)
  {
    && |w.fate| == |entries| && w.stop <= |entries| && (!w.aborted ==> w.stop == 0)
    // existing posts are kept, one post is added per taken entry
    && |out| == |posts| + |w.taken| && out[..|posts|] == posts
    && (forall k :: 0 <= k < |w.taken| ==> w.taken[k] < |entries| && w.fate[w.taken[k]] == Made(|posts| + k))
    // the walk reaches exactly the entries from the oldest down to `stop`
    && (forall j :: 0 <= j < w.stop ==> w.fate[j] == Unseen)
    && (forall j :: w.stop <= j < |entries| && !(w.aborted && j == w.stop) ==> w.fate[j].Skipped? || w.fate[j].Made?)
    // the entry that aborts the walk was accepted, and its processing raised
    && (w.aborted ==> w.stop < |entries| && w.fate[w.stop] == Raised &&
                      Accepts(out, ch, entries[w.stop], dup) && process(entries[w.stop]).None?)
    // each verdict is justified, and older entries become earlier posts
    && SkipsJustified(out, w.fate, entries, ch, dup) && SkipsInOrder(posts, w.fate)
    && MadeJustified(posts, out, w.fate, entries, ch, sourceUrl, now, dup, process)
    && OldestFirst(w.fate)
  }

  /** A walk that reached the newest entry is complete. */
  lemma DoneStep(posts: seq<Post>, out: seq<Post>, fate: seq<Fate>, taken: seq<nat>, entries: seq<Entry>,
                 ch: Channel, sourceUrl: string, now: int, dup: DuplicateCheck, process: Processor)
    requires Walked(posts, out, fate, taken, 0, entries, ch, sourceUrl, now, dup, process)
    ensures Ingested(posts, out, Walk(fate, taken, 0, false), entries, ch, sourceUrl, now, dup, process)
  {
  }

  /** Entry `i - 1` was accepted and raised: the walk ends there. */
  lemma AbortStep(posts: seq<Post>, out: seq<Post>, fate: seq<Fate>, taken: seq<nat>, i: nat, entries: seq<Entry>,
                  ch: Channel, sourceUrl: string, now: int, dup: DuplicateCheck, process: Processor)
    requires Walked(posts, out, fate, taken, i, entries, ch, sourceUrl, now, dup, process)
    requires i > 0 && Accepts(out, ch, entries[i - 1], dup) && process(entries[i - 1]).None?
    ensures Ingested(posts, out, Walk(fate[i - 1 := Raised], taken, i - 1, true), entries, ch, sourceUrl, now, dup,
                     process)
  {
  }

  /** The oldest entry is judged against the stored posts alone: when it
      passes both filters, it becomes the first new post, unless processing
      it raised and ended the walk. */
  lemma {:induction false} OldestEntryFirst(posts: seq<Post>, out: seq<Post>, w: Walk, entries: seq<Entry>, ch: Channel,
                                            sourceUrl: string, now: int, dup: DuplicateCheck, process: Processor)
    requires Ingested(posts, out, w, entries, ch, sourceUrl, now, dup, process)
    requires |entries| > 0 && Accepts(posts, ch, entries[|entries| - 1], dup)
    ensures process(entries[|entries| - 1]).None? ==> w.aborted && w.stop == |entries| - 1 && out == posts
    ensures process(entries[|entries| - 1]).Some? ==>
              w.fate[|entries| - 1] == Made(|posts|) &&
              out[|posts|] == NewPost(posts, ch, sourceUrl, entries[|entries| - 1], process(entries[|entries| - 1]).value, now)
  {
    var last := |entries| - 1;
    // the first post made comes from the oldest entry
    if |w.taken| > 0 && w.taken[0] != last {
      assert false;
    }
    // a skip would have been judged against `posts` alone
    if w.fate[last].Skipped? {
      assert false;
    }
    if w.fate[last].Made? {
      assert Created(out, |posts|, ch, sourceUrl, entries[last], now, dup, process);
      assert out[..|posts|] == posts;
    }
  }

  /** The walk over one feed's entries, oldest first. */
  method IngestEntries(posts: seq<Post>, ch: Channel, sourceUrl: string, entries: seq<Entry>, now: int,
                       dup: DuplicateCheck, process: Processor)
    returns (out: seq<Post>, fate: seq<Fate>, taken: seq<nat>, stop: nat, aborted: bool, aiCalls: nat)
    ensures Ingested(posts, out, Walk(fate, taken, stop, aborted), entries, ch, sourceUrl, now, dup, process)
    // the processor is asked once per accepted entry and for no other
    ensures aiCalls == |taken| + (if aborted then 1 else 0)
    ensures QueueInvariant(posts) && ch.postInterval >= 0 ==> QueueInvariant(out)
  {
    out, taken, stop, aborted, aiCalls := posts, [], 0, false, 0;
    fate := seq(|entries|, _ => Unseen);
    var i: nat := |entries|;
    while i > 0
      invariant Walked(posts, out, fate, taken, i, entries, ch, sourceUrl, now, dup, process)
      invariant aiCalls == |taken|
      invariant QueueInvariant(posts) && ch.postInterval >= 0 ==> QueueInvariant(out)
      decreases i
    {
      var e := entries[i - 1];
      if !Accepts(out, ch, e, dup) {
        SkipStep(posts, out, fate, taken, i, entries, ch, sourceUrl, now, dup, process);
        fate := fate[i - 1 := Skipped(|out|)];
        i := i - 1;
      } else {
        var text := process(e);
        aiCalls := aiCalls + 1;
        if text.None? {
          AbortStep(posts, out, fate, taken, i, entries, ch, sourceUrl, now, dup, process);
          aborted, stop := true, i - 1;
          fate := fate[i - 1 := Raised];
          return;
        }
        var out' := Enqueue(out, ch, sourceUrl, e, text.value, now);
        TakeStep(posts, out, fate, taken, i, entries, ch, sourceUrl, now, dup, process, out');
        fate := fate[i - 1 := Made(|out|)];
        out, taken, i := out', taken + [i - 1], i - 1;
      }
    }
    DoneStep(posts, out, fate, taken, entries, ch, sourceUrl, now, dup, process);
  }

  /** What the feed check writes to a source row: the newest identifier, the
      error flag, or nothing. */
  datatype SourceCheck = Advanced(guid: Option<string>) | Flagged | Untouched

  /** `update_source_check` applied to the rows with the given id. */
  function ApplyCheck(sources: seq<Source>, id: int, c: SourceCheck): (r: seq<Source>)
    ensures |r| == |sources|
    ensures forall k :: 0 <= k < |sources| ==>
      if sources[k].id != id then r[k] == sources[k]
      else match c
        case Advanced(g) => r[k] == sources[k].(lastGuid := g)
        case Flagged => r[k] == sources[k].(hasError := true)
        case Untouched => r[k] == sources[k]
  {
    if |sources| == 0 then []
    else
      var s := sources[0];
      var s' := if s.id != id then s else match c
        case Advanced(g) => s.(lastGuid := g)
        case Flagged => s.(hasError := true)
        case Untouched => s;
      [s'] + ApplyCheck(sources[1..], id, c)
  }

  /** Every channel's interval is non-negative. */
  predicate IntervalsOk(channels: seq<Channel>) {
    forall k :: 0 <= k < |channels| ==> channels[k].postInterval >= 0
  }

  /** Some entry passes the media filter. */
  predicate HasMedia(entries: seq<Entry>) {
    exists j :: 0 <= j < |entries| && |entries[j].media| > 0
  }

  /** What the check of source `src` may end with, given what its feed
      returned: a fetch error flags it, an empty list leaves it alone, a
      non-empty list advances it to the newest entry unless it is flagged,
      and a fetched list is flagged only when the channel row is missing and
      some entry has media, or when processing one of its entries raises. */
  predicate Explained(channels: seq<Channel>, src: Source, feed: Feed, o: Oracles, c: SourceCheck) {
    && (feed.FetchError? ==> c == Flagged)
    && (feed == Fetched([]) ==> c == Untouched)
    && (feed.Fetched? && |feed.entries| > 0 ==> c == Advanced(feed.entries[0].guid) || c == Flagged)
    && (feed.Fetched? && c == Flagged ==>
          match FindChannel(channels, src.channelId)
          case None => HasMedia(feed.entries)
          case Some(ch) =>
            exists j :: 0 <= j < |feed.entries| && ProcessContent(feed.entries[j], ch, o).text.None?)
  }

  /** `process_content` with the settings of channel `ch`. */
  function ProcessorOf(ch: Channel, o: Oracles): Processor {
    e => ProcessContent(e, ch, o).text
  }

  /** Checking source `src` turned `posts` into `out` by walk `w`: with the
      channel row present and the feed fetched, `w` is the walk over the
      feed's entries and the source is flagged exactly when the walk aborted;
      otherwise no post is added. */
  predicate WalkedFeed(posts: seq<Post>, out: seq<Post>, channels: seq<Channel>, src: Source, feed: Feed,
                       now: int, dup: DuplicateCheck, o: Oracles, w: Walk, c: SourceCheck)
  {
    if feed.Fetched? && FindChannel(channels, src.channelId).Some? then
      var ch := FindChannel(channels, src.channelId).value;
      && Ingested(posts, out, w, feed.entries, ch, src.url, now, dup, ProcessorOf(ch, o))
      && (c == Flagged <==> w.aborted)
    else
      out == posts
  }

  /** The body of the per-source `try` block of `check_rss_sources`. */
  method IngestSource(posts: seq<Post>, channels: seq<Channel>, src: Source, feed: Feed, now: int,
                      dup: DuplicateCheck, o: Oracles)
    returns (out: seq<Post>, check: SourceCheck, walk: Walk)
    ensures |out| >= |posts| && out[..|posts|] == posts
    // the posts added are those of the walk over the entries, and only an aborted walk flags the source
    ensures WalkedFeed(posts, out, channels, src, feed, now, dup, o, walk, check)
    // a failed fetch flags the source and changes nothing else
    ensures feed.FetchError? ==> check == Flagged && out == posts
    // an empty entry list leaves everything as it was
    ensures feed == Fetched([]) ==> check == Untouched && out == posts
    // a non-empty list moves the source to its newest entry, unless it raised
    ensures feed.Fetched? && |feed.entries| > 0 ==> check == Advanced(feed.entries[0].guid) || check == Flagged
    ensures check.Advanced? ==> feed.Fetched? && |feed.entries| > 0
    // with the channel present, a fetched list fails only when processing an entry raised
    ensures feed.Fetched? && check == Flagged && FindChannel(channels, src.channelId).Some? ==>
              exists j :: 0 <= j < |feed.entries| &&
                ProcessContent(feed.entries[j], FindChannel(channels, src.channelId).value, o).text.None?
    // without its channel row the source fails exactly when some entry has media
    ensures feed.Fetched? && FindChannel(channels, src.channelId).None? ==>
              out == posts && (check == Flagged <==> HasMedia(feed.entries))
    // every post added belongs to the source's channel and is pending
    ensures forall k :: |posts| <= k < |out| ==>
              out[k].channelId == src.channelId && out[k].sourceUrl == src.url && out[k].status == Pending
    ensures QueueInvariant(posts) && IntervalsOk(channels) ==> QueueInvariant(out)
    ensures Explained(channels, src, feed, o, check)
  {
    walk := Walk([], [], 0, false);
    match feed
    case FetchError =>
      return posts, Flagged, walk;
    case Fetched(entries) =>
      var chOpt := FindChannel(channels, src.channelId);
      if |entries| == 0 {
        return posts, Untouched, walk;
      }
      if chOpt.None? {
        // `channel.id` is first read once an entry passes the media filter
        if HasMedia(entries) {
          return posts, Flagged, walk;
        }
        return posts, Advanced(entries[0].guid), walk;
      }
      var ch := chOpt.value;
      var fate, taken, stop, aborted, calls;
      out, fate, taken, stop, aborted, calls := IngestEntries(posts, ch, src.url, entries, now, dup, ProcessorOf(ch, o));
      walk := Walk(fate, taken, stop, aborted);
      forall k | |posts| <= k < |out|
        ensures out[k].channelId == src.channelId && out[k].sourceUrl == src.url && out[k].status == Pending
      {
        assert fate[taken[k - |posts|]] == Made(k);
        assert Created(out, k, ch, src.url, entries[taken[k - |posts|]], now, dup, ProcessorOf(ch, o));
        assert out[..k + 1][k] == out[k];
      }
      if aborted {
        check := Flagged;
      } else {
        check := Advanced(entries[0].guid);
      }
  }

  /** A source row carries what check `c` writes: the newest identifier, or
      the error flag. */
  predicate RowShows(s: Source, c: SourceCheck) {
    match c
    case Advanced(g) => s.lastGuid == g
    case Flagged => s.hasError
    case Untouched => true
  }

  /** Check `k` is the last of the first `i` checks made for its source id. */
  predicate LastCheck(active: seq<Source>, i: nat, k: nat)
    requires k < i <= |active|
  {
    forall k' :: k < k' < i ==> active[k'].id != active[k].id
  }

  /** Source `t` differs from `s` at most in what a check writes. */
  predicate SameSource(s: Source, t: Source) {
    t == s.(lastGuid := t.lastGuid, hasError := t.hasError)
  }

  /** Writing check `c` for source `active[i]` keeps every row showing the
      last check made for it. */
  lemma ApplyKeepsRows(before: seq<Source>, rows: seq<Source>, active: seq<Source>, checks: seq<SourceCheck>,
                       i: nat, c: SourceCheck)
    requires i < |active| && |checks| == i && |rows| == |before|
    requires forall j :: 0 <= j < |before| ==> SameSource(before[j], rows[j])
    requires forall j, k :: 0 <= j < |before| && 0 <= k < i && before[j].id == active[k].id && LastCheck(active, i, k) ==>
               RowShows(rows[j], checks[k])
    ensures var rows' := ApplyCheck(rows, active[i].id, c);
            && (forall j :: 0 <= j < |before| ==> SameSource(before[j], rows'[j]))
            && forall j, k :: (0 <= j < |before| && 0 <= k < i + 1 && before[j].id == active[k].id &&
                               LastCheck(active, i + 1, k)) ==> RowShows(rows'[j], (checks + [c])[k])
  {
    var rows' := ApplyCheck(rows, active[i].id, c);
    forall j, k | 0 <= j < |before| && 0 <= k < i + 1 && before[j].id == active[k].id && LastCheck(active, i + 1, k)
      ensures RowShows(rows'[j], (checks + [c])[k])
    {
      if k < i {
        assert active[i].id != active[k].id;
        assert LastCheck(active, i, k);
        assert rows'[j] == rows[j];
      }
    }
  }

  /** The numbers never decrease. */
  predicate Ascending(starts: seq<nat>) {
    forall k, k' :: 0 <= k < k' < |starts| ==> starts[k] <= starts[k']
  }

  /** The walks of sources `0 .. |walks|`, source k appending the posts from
      `starts[k]` to `starts[k + 1]` of `posts`. */
  predicate WalksRecorded(posts: seq<Post>, starts: seq<nat>, walks: seq<Walk>, checks: seq<SourceCheck>,
                          active: seq<Source>, channels: seq<Channel>, fetch: Source -> Feed, now: int,
                          dup: DuplicateCheck, o: Oracles)
  {
    && |walks| == |checks| && |starts| == |walks| + 1 && |walks| <= |active|
    && Ascending(starts) && starts[|walks|] == |posts|
    && forall k {:trigger walks[k]} :: 0 <= k < |walks| ==>
         WalkedFeed(posts[..starts[k]], posts[..starts[k + 1]], channels, active[k], fetch(active[k]),
                    now, dup, o, walks[k], checks[k])
  }

  /** Checking the next source extends the record by its walk. */
  lemma WalkStep(posts: seq<Post>, posts': seq<Post>, starts: seq<nat>, walks: seq<Walk>, checks: seq<SourceCheck>,
                 active: seq<Source>, channels: seq<Channel>, fetch: Source -> Feed, now: int,
                 dup: DuplicateCheck, o: Oracles, w: Walk, c: SourceCheck)
    requires WalksRecorded(posts, starts, walks, checks, active, channels, fetch, now, dup, o)
    requires |walks| < |active| && |posts| <= |posts'| && posts'[..|posts|] == posts
    requires WalkedFeed(posts, posts', channels, active[|walks|], fetch(active[|walks|]), now, dup, o, w, c)
    ensures WalksRecorded(posts', starts + [|posts'|], walks + [w], checks + [c], active, channels, fetch, now, dup, o)
  {
    var starts', walks', checks' := starts + [|posts'|], walks + [w], checks + [c];
    forall k | 0 <= k < |walks'|
      ensures WalkedFeed(posts'[..starts'[k]], posts'[..starts'[k + 1]], channels, active[k], fetch(active[k]),
                         now, dup, o, walks'[k], checks'[k])
    {
      if k < |walks| {
        assert posts'[..starts[k]] == posts[..starts[k]];
        assert posts'[..starts[k + 1]] == posts[..starts[k + 1]];
      } else {
        assert posts'[..starts'[k]] == posts && posts'[..starts'[k + 1]] == posts';
      }
    }
  }

  /** The outcome of one more source keeps every outcome explained. */
  lemma ExplainedStep(channels: seq<Channel>, active: seq<Source>, fetch: Source -> Feed, o: Oracles,
                      checks: seq<SourceCheck>, c: SourceCheck)
    requires |checks| < |active|
    requires forall k :: 0 <= k < |checks| ==> Explained(channels, active[k], fetch(active[k]), o, checks[k])
    requires Explained(channels, active[|checks|], fetch(active[|checks|]), o, c)
    ensures forall k :: 0 <= k < |checks| + 1 ==> Explained(channels, active[k], fetch(active[k]), o, (checks + [c])[k])
  {
  }

  /** The state of the feed half of `check_rss_sources` once the first
      `|checks|` active sources are walked, starting from `posts`. */
  predicate Ingesting(posts: seq<Post>, out: seq<Post>, checks: seq<SourceCheck>, walks: seq<Walk>, starts: seq<nat>,
                      active: seq<Source>, channels: seq<Channel>, fetch: Source -> Feed, now: int,
                      dup: DuplicateCheck, o: Oracles)
  {
    && WalksRecorded(out, starts, walks, checks, active, channels, fetch, now, dup, o) && starts[0] == |posts|
    && (forall k :: 0 <= k < |checks| ==> Explained(channels, active[k], fetch(active[k]), o, checks[k]))
    && |out| >= |posts| && out[..|posts|] == posts
    && (QueueInvariant(posts) && IntervalsOk(channels) ==> QueueInvariant(out))
  }

  /** Walking one more source, as `IngestSource` promises, continues the
      feed half. */
  lemma IngestingStep(posts: seq<Post>, out: seq<Post>, checks: seq<SourceCheck>, walks: seq<Walk>, starts: seq<nat>,
                      active: seq<Source>, channels: seq<Channel>, fetch: Source -> Feed, now: int,
                      dup: DuplicateCheck, o: Oracles, out': seq<Post>, c: SourceCheck, w: Walk)
    requires Ingesting(posts, out, checks, walks, starts, active, channels, fetch, now, dup, o)
    requires |checks| < |active|
    requires |out'| >= |out| && out'[..|out|] == out
    requires WalkedFeed(out, out', channels, active[|checks|], fetch(active[|checks|]), now, dup, o, w, c)
    requires Explained(channels, active[|checks|], fetch(active[|checks|]), o, c)
    requires QueueInvariant(out) && IntervalsOk(channels) ==> QueueInvariant(out')
    ensures Ingesting(posts, out', checks + [c], walks + [w], starts + [|out'|], active, channels, fetch, now, dup, o)
  {
    assert out'[..|posts|] == out'[..|out|][..|posts|];
    WalkStep(out, out', starts, walks, checks, active, channels, fetch, now, dup, o, w, c);
    ExplainedStep(channels, active, fetch, o, checks, c);
  }

  /** The feed half of the loop of `check_rss_sources`: every active source
      in turn is walked against the posts stored so far. */
  method IngestAll(posts: seq<Post>, channels: seq<Channel>, active: seq<Source>, fetch: Source -> Feed, now: int,
                   dup: DuplicateCheck, o: Oracles)
    returns (out: seq<Post>, checks: seq<SourceCheck>, walks: seq<Walk>, starts: seq<nat>)
    ensures |checks| == |active| && |walks| == |active|
    ensures WalksRecorded(out, starts, walks, checks, active, channels, fetch, now, dup, o) && starts[0] == |posts|
    ensures forall k :: 0 <= k < |active| ==> Explained(channels, active[k], fetch(active[k]), o, checks[k])
    ensures |out| >= |posts| && out[..|posts|] == posts
    ensures QueueInvariant(posts) && IntervalsOk(channels) ==> QueueInvariant(out)
  {
    out, checks, walks, starts := posts, [], [], [|posts|];
    assert posts[..|posts|] == posts;
    var i := 0;
    while i < |active|
      invariant 0 <= i <= |active| && |checks| == i
      invariant Ingesting(posts, out, checks, walks, starts, active, channels, fetch, now, dup, o)
    {
      var out', c, w := IngestSource(out, channels, active[i], fetch(active[i]), now, dup, o);
      IngestingStep(posts, out, checks, walks, starts, active, channels, fetch, now, dup, o, out', c, w);
      out, checks, walks, starts := out', checks + [c], walks + [w], starts + [|out'|];
      i := i + 1;
    }
  }

  /** The source-row half of the loop of `check_rss_sources`: the outcome
      of each active source in turn is written to its rows. */
  method WriteChecks(sources: seq<Source>, active: seq<Source>, checks: seq<SourceCheck>) returns (rows: seq<Source>)
    requires |checks| == |active|
    ensures |rows| == |sources|
    // a source row carries the last check made for it, and nothing else of it changes
    ensures forall j, k :: (0 <= j < |sources| && 0 <= k < |active| && sources[j].id == active[k].id &&
                            LastCheck(active, |active|, k)) ==> RowShows(rows[j], checks[k])
    ensures forall j :: 0 <= j < |sources| ==> SameSource(sources[j], rows[j])
    // rows of sources that were not checked are left alone
    ensures forall j :: 0 <= j < |sources| && (forall k :: 0 <= k < |active| ==> active[k].id != sources[j].id) ==>
              rows[j] == sources[j]
  {
    rows := sources;
    var i := 0;
    while i < |active|
      invariant 0 <= i <= |active| && |rows| == |sources|
      invariant forall j, k :: (0 <= j < |sources| && 0 <= k < i && sources[j].id == active[k].id &&
                                LastCheck(active, i, k)) ==> RowShows(rows[j], checks[k])
      invariant forall j :: 0 <= j < |sources| ==> SameSource(sources[j], rows[j])
      invariant forall j :: 0 <= j < |sources| && (forall k :: 0 <= k < i ==> active[k].id != sources[j].id) ==>
                  rows[j] == sources[j]
    {
      ApplyKeepsRows(sources, rows, active, checks[..i], i, checks[i]);
      assert checks[..i] + [checks[i]] == checks[..i + 1];
      rows := ApplyCheck(rows, active[i].id, checks[i]);
      i := i + 1;
    }
  }

  /** `check_rss_sources`: every active source in turn, a failure of one
      recorded on it alone. `fetch` stands for `parse_feed` on the source's
      URL and last identifier. The walks do not read source rows, so the
      posts of all sources are made first and the rows written after. */
  method CheckRssSources(db: Db, active: seq<Source>, fetch: Source -> Feed, now: int,
                         dup: DuplicateCheck, o: Oracles)
    returns (db': Db, checks: seq<SourceCheck>, walks: seq<Walk>, starts: seq<nat>)
    ensures db'.channels == db.channels && |db'.sources| == |db.sources|
    // the loop goes on after a failing source: every active source has its outcome
    ensures |checks| == |active| && |walks| == |active|
    // source k appended the posts from `starts[k]` to `starts[k + 1]`, by its walk
    ensures WalksRecorded(db'.posts, starts, walks, checks, active, db.channels, fetch, now, dup, o)
    ensures starts[0] == |db.posts|
    // each source's outcome follows from its own feed and its own entries
    ensures forall k :: 0 <= k < |active| ==> Explained(db.channels, active[k], fetch(active[k]), o, checks[k])
    // a source row carries the last check made for it, and nothing else of it changes
    ensures forall j, k :: (0 <= j < |db.sources| && 0 <= k < |active| && db.sources[j].id == active[k].id &&
                            LastCheck(active, |active|, k)) ==> RowShows(db'.sources[j], checks[k])
    ensures forall j :: 0 <= j < |db.sources| ==> SameSource(db.sources[j], db'.sources[j])
    // rows of sources that were not checked are left alone
    ensures forall j :: 0 <= j < |db.sources| && (forall k :: 0 <= k < |active| ==> active[k].id != db.sources[j].id) ==>
              db'.sources[j] == db.sources[j]
    // posts are only ever added, and the queue invariant is kept
    ensures |db'.posts| >= |db.posts| && db'.posts[..|db.posts|] == db.posts
    ensures QueueInvariant(db.posts) && IntervalsOk(db.channels) ==> QueueInvariant(db'.posts)
  {
    var posts;
    posts, checks, walks, starts := IngestAll(db.posts, db.channels, active, fetch, now, dup, o);
    var rows := WriteChecks(db.sources, active, checks);
    db' := db.(sources := rows, posts := posts);
  }

  // ---------------------------------------------------------------------------
  // Publishing tick

  /** `publish_post` for a post: the message id, `None` when publishing failed. */
  type Publisher = Post -> Option<int>

  /** `if message_id:` — a missing id and the id 0 both count as failure. */
  predicate Truthy(id: Option<int>) {
    id.Some? && id.value != 0
  }

  datatype Tick = Tick(posts: seq<Post>, publishCalls: nat)

  /** `publish_scheduled_posts`: `pending` is what `get_pending_posts`
      returns; only its head is looked at. */
  function PublishTick(posts: seq<Post>, channels: seq<Channel>, pending: seq<Post>, publish: Publisher): (r: Tick)
    ensures |r.posts| == |posts| && r.publishCalls <= 1
    // only rows with the head's id can change, and only in status and message id
    ensures forall k :: 0 <= k < |posts| ==>
              r.posts[k] == posts[k] ||
              (|pending| > 0 && posts[k].id == pending[0].id &&
               r.posts[k] == posts[k].(status := r.posts[k].status, messageId := r.posts[k].messageId))
    // nothing to do, or the head's channel is inactive or missing: no change
    ensures |pending| == 0 ==> r == Tick(posts, 0)
    ensures |pending| > 0 && !ChannelLive(channels, pending[0]) ==> r == Tick(posts, 0)
    // moderation mode parks the post without publishing it
    ensures |pending| > 0 && FindChannel(channels, pending[0].channelId).Some? ==>
              var ch := FindChannel(channels, pending[0].channelId).value;
              ch.isActive && ch.moderationMode ==>
                r == Tick(SetStatus(posts, pending[0].id, Moderation, None), 0)
    // otherwise one publish call decides between published and failed
    ensures |pending| > 0 && FindChannel(channels, pending[0].channelId).Some? ==>
              var ch := FindChannel(channels, pending[0].channelId).value;
              var id := publish(pending[0]);
              ch.isActive && !ch.moderationMode ==>
                r.publishCalls == 1 &&
                r.posts == (if Truthy(id) then SetStatus(posts, pending[0].id, Published, id)
                            else SetStatus(posts, pending[0].id, Failed, None))
    ensures QueueInvariant(posts) ==> QueueInvariant(r.posts)
  {
    if |pending| == 0 then Tick(posts, 0)
    else
      var p := pending[0];
      match FindChannel(channels, p.channelId)
      case None => Tick(posts, 0)
      case Some(ch) =>
        if !ch.isActive then Tick(posts, 0)
        else if ch.moderationMode then Tick(SetStatus(posts, p.id, Moderation, None), 0)
        else
          var id := publish(p);
          if Truthy(id) then Tick(SetStatus(posts, p.id, Published, id), 1)
          else Tick(SetStatus(posts, p.id, Failed, None), 1)
  }

  /** The post's channel exists and is active. */
  predicate ChannelLive(channels: seq<Channel>, p: Post) {
    var ch := FindChannel(channels, p.channelId);
    ch.Some? && ch.value.isActive
  }

  /** With distinct ids a tick changes at most one post. */
  lemma TickChangesAtMostOne(posts: seq<Post>, channels: seq<Channel>, pending: seq<Post>, publish: Publisher,
                             i: nat, j: nat)
    requires UniqueIds(posts) && i < j < |posts|
    ensures var r := PublishTick(posts, channels, pending, publish).posts;
            r[i] == posts[i] || r[j] == posts[j]
  {
  }

  /** A message id of 0 counts as a failed publication. */
  lemma ZeroIdFails(posts: seq<Post>, channels: seq<Channel>, pending: seq<Post>, publish: Publisher)
    requires |pending| > 0 && FindChannel(channels, pending[0].channelId).Some?
    requires var ch := FindChannel(channels, pending[0].channelId).value; ch.isActive && !ch.moderationMode
    requires publish(pending[0]) == Some(0)
    ensures PublishTick(posts, channels, pending, publish).posts == SetStatus(posts, pending[0].id, Failed, None)
  {
  }
}

=== FILE: settings.dfy ===
/** Process configuration read from the environment: the database URL
    normalisation and the comma-separated list of administrator ids. */
module Settings {
  import opened Wrappers
  import opened Text
  import opened Numbers

  const DefaultSqlite := "sqlite:///bot.db"
  const RestScheme := "https://"
  const LegacyScheme := "postgres://"
  const DriverScheme := "postgresql+psycopg2://"

  /** `s.lower().startswith(prefix)`. */
  predicate StartsWithIgnoringCase(s: string, prefix: string) {
    StartsWith(Lower(s), prefix)
  }

  /** `_normalize_database_url`: the URL handed to the database engine.
      `raw` is the environment variable, `None` when it is unset. */
  function NormalizeDatabaseUrl(raw: Option<string>): (r: string)
    // an unset or empty variable selects the local SQLite file
    ensures raw == None || raw == Some("") ==> r == DefaultSqlite
    ensures raw.Some? && raw.value != "" ==>
      var u := Strip(raw.value);
      // a REST base URL put there by mistake falls back to SQLite
      && (StartsWithIgnoringCase(u, RestScheme) ==> r == DefaultSqlite)
      // the legacy scheme gets the driver-qualified one, the rest kept verbatim
      && (!StartsWithIgnoringCase(u, RestScheme) && StartsWithIgnoringCase(u, LegacyScheme) ==>
            r == DriverScheme + u[|LegacyScheme|..])
      // anything else, `postgresql://...` included, is only stripped
      && (!StartsWithIgnoringCase(u, RestScheme) && !StartsWithIgnoringCase(u, LegacyScheme) ==> r == u)
    // whatever the input, the engine never sees a REST URL or the legacy scheme
    ensures !StartsWithIgnoringCase(r, RestScheme) && !StartsWithIgnoringCase(r, LegacyScheme)
  {
    if raw == None || raw.value == "" then
      DefaultProperties();
      DefaultSqlite
    else
      var u := Strip(raw.value);
      if StartsWithIgnoringCase(u, RestScheme) then
        DefaultProperties();
        DefaultSqlite
      else if StartsWithIgnoringCase(u, LegacyScheme) then
        DriverSchemeProperties(u[|LegacyScheme|..]);
        DriverScheme + u[|LegacyScheme|..]
      else
        u
  }

  lemma DefaultProperties()
    ensures Strip(DefaultSqlite) == DefaultSqlite
    ensures !StartsWithIgnoringCase(DefaultSqlite, RestScheme)
    ensures !StartsWithIgnoringCase(DefaultSqlite, LegacyScheme)
  {
    DefaultIsStripped();
    DiffersAt(DefaultSqlite, RestScheme, 0);
    DiffersAt(DefaultSqlite, LegacyScheme, 0);
  }

  lemma DefaultIsStripped()
    ensures Strip(DefaultSqlite) == DefaultSqlite
  {
    assert DefaultSqlite[0] == 's' && DefaultSqlite[|DefaultSqlite| - 1] == 'b';
    TrimFixed(DefaultSqlite, IsSpace);
  }

  /** A string whose `i`-th character, lower-cased, differs from the prefix's
      does not start with the prefix in any letter case. */
  lemma DiffersAt(s: string, prefix: string, i: nat)
    requires i < |prefix| <= |s|
    requires LowerChar(s[i]) != prefix[i]
    ensures !StartsWithIgnoringCase(s, prefix)
  {
    assert Lower(s)[..|prefix|][i] == LowerChar(s[i]);
  }

  /** A driver-qualified URL is neither a REST URL nor a legacy one. */
  lemma DriverSchemeProperties(rest: string)
    ensures !StartsWithIgnoringCase(DriverScheme + rest, RestScheme)
    ensures !StartsWithIgnoringCase(DriverScheme + rest, LegacyScheme)
  {
    var r := DriverScheme + rest;
    assert r[0] == 'p' && r[8] == 'q';
    DiffersAt(r, RestScheme, 0);
    DiffersAt(r, LegacyScheme, 8);
  }

  /** A whitespace-only value is not treated as empty: the emptiness test
      looks at the raw value, and stripping then leaves the empty URL. */
  lemma WhitespaceOnlyUrlIsEmpty(raw: string)
    requires |raw| > 0
    requires forall i :: 0 <= i < |raw| ==> IsSpace(raw[i])
    ensures NormalizeDatabaseUrl(Some(raw)) == ""
  {
  }

  /** Normalising a normalised URL changes nothing, as long as the input does
      not strip to the empty string. */
  lemma NormalizeIdempotent(raw: string)
    requires Strip(raw) != ""
    ensures NormalizeDatabaseUrl(Some(NormalizeDatabaseUrl(Some(raw)))) == NormalizeDatabaseUrl(Some(raw))
  {
    var u := Strip(raw);
    if StartsWithIgnoringCase(u, RestScheme) {
      assert NormalizeDatabaseUrl(Some(raw)) == DefaultSqlite;
      DefaultProperties();
    } else if StartsWithIgnoringCase(u, LegacyScheme) {
      assert NormalizeDatabaseUrl(Some(raw)) == DriverScheme + u[|LegacyScheme|..];
      DriverUrlIsFixed(u);
    } else {
      assert NormalizeDatabaseUrl(Some(raw)) == u;
      TrimIdempotent(raw, IsSpace);
    }
  }

  /** The driver-qualified URL built from a stripped legacy URL normalises to
      itself. */
  lemma DriverUrlIsFixed(u: string)
    requires u != "" && Strip(u) == u && StartsWithIgnoringCase(u, LegacyScheme)
    ensures var r := DriverScheme + u[|LegacyScheme|..];
            NormalizeDatabaseUrl(Some(r)) == r
  {
    var rest := u[|LegacyScheme|..];
    DriverUrlIsStripped(u);
    DriverSchemeProperties(rest);
  }

  lemma DriverUrlIsStripped(u: string)
    requires u != "" && Strip(u) == u && |u| >= |LegacyScheme|
    ensures var r := DriverScheme + u[|LegacyScheme|..];
            Strip(r) == r
  {
    var r := DriverScheme + u[|LegacyScheme|..];
    assert !IsSpace(u[|u| - 1]);
    assert r[|r| - 1] == '/' || r[|r| - 1] == u[|u| - 1];
    assert r[0] == 'p';
    TrimFixed(r, IsSpace);
  }

  /** The inputs on which normalisation is not idempotent: a whitespace-only
      value normalises to "", which normalises to the SQLite default. */
  lemma WhitespaceOnlyNotIdempotent()
    ensures NormalizeDatabaseUrl(Some(" ")) == ""
    ensures NormalizeDatabaseUrl(Some(NormalizeDatabaseUrl(Some(" ")))) == DefaultSqlite
  {
    WhitespaceOnlyUrlIsEmpty(" ");
  }

  // ---------------------------------------------------------------------------
  // ADMIN_IDS

  /** `[int(x) for x in parts]`: `None` when some `int` raises. */
  function ParseAll(parts: seq<string>): (r: Option<seq<int>>)
    ensures r.None? <==> exists k :: 0 <= k < |parts| && ParseInt(parts[k]).None?
    ensures r.Some? ==>
              && |r.value| == |parts|
              && forall k :: 0 <= k < |parts| ==> ParseInt(parts[k]) == Some(r.value[k])
  {
    if |parts| == 0 then Some([])
    else
      var head := ParseInt(parts[0]);
      var tail := ParseAll(parts[1..]);
      if head.None? then None
      else if tail.None? then
        var k :| 0 <= k < |parts[1..]| && ParseInt(parts[1..][k]).None?;
        assert ParseInt(parts[k + 1]).None?;
        None
      else Some([head.value] + tail.value)
  }

  /** `ADMIN_IDS`: the variable (default "") split at commas, empty pieces
      skipped, each piece read with `int`; `None` stands for the `ValueError`
      that stops the process when a piece is not a number. */
  function ParseAdminIds(env: Option<string>): (r: Option<seq<int>>)
    ensures var pieces := NonEmpty(Split(env.GetOr(""), ","));
      && (r.None? <==> exists k :: 0 <= k < |pieces| && ParseInt(pieces[k]).None?)
      && (r.Some? ==>
            && |r.value| == |pieces|
            && forall k :: 0 <= k < |pieces| ==> ParseInt(pieces[k]) == Some(r.value[k]))
  {
    ParseAll(NonEmpty(Split(env.GetOr(""), ",")))
  }

  /** An unset variable gives no administrators. */
  lemma AdminIdsUnset()
    ensures ParseAdminIds(None) == Some([])
  {
    assert Split("", ",") == [""];
  }

  /** Empty pieces between commas are skipped. */
  lemma AdminIdsSkipEmpty()
    ensures ParseAdminIds(Some("1,,2")) == Some([1, 2])
  {
    var pieces := Split("1,,2", ",");
    assert pieces == ["1", "", "2"] by {
      SplitNoSep("2", ',');
      SplitAtFirst("", ',', "2");
      assert "" + [','] + "2" == ",2";
      SplitAtFirst("1", ',', ",2");
      assert "1" + [','] + ",2" == "1,,2";
    }
    assert NonEmpty(pieces) == ["1", "2"];
    ParseOneTwo();
  }

  lemma ParseOneTwo()
    ensures ParseAll(["1", "2"]) == Some([1, 2])
  {
    ParseShow(1);
    ParseShow(2);
    assert Show(1) == [DigitChar(1)] == "1";
    assert Show(2) == [DigitChar(2)] == "2";
    var ps := ["1", "2"];
    assert ps[1..][1..] == [];
    assert ParseAll(ps[1..]) == Some([2] + []);
    assert [2] + [] == [2] && [1] + [2] == [1, 2];
  }

  function ShowAll(ids: seq<int>): (r: seq<string>)
    ensures |r| == |ids|
    ensures forall k :: 0 <= k < |ids| ==> r[k] == Show(ids[k])
  {
    if |ids| == 0 then [] else [Show(ids[0])] + ShowAll(ids[1..])
  }

  /** Writing a list of ids comma-separated and reading it back gives the same
      list. */
  lemma AdminIdsRoundTrip(ids: seq<int>)
    ensures ParseAdminIds(Some(Join(ShowAll(ids), ","))) == Some(ids)
  {
    var shown := ShowAll(ids);
    ShownPieces(ids);
    assert NonEmpty(Split(Join(shown, ","), ",")) == shown by {
      if |ids| == 0 {
        assert Split("", ",") == [""];
      } else {
        SplitJoin(shown, ',');
        assert NonEmpty(shown) == shown;
      }
    }
    ParsesBack(shown, ids);
  }

  /** Every written id is a non-empty, comma-free piece that reads back as
      the id. */
  lemma ShownPieces(ids: seq<int>)
    ensures var shown := ShowAll(ids);
            forall k :: 0 <= k < |ids| ==>
              ParseInt(shown[k]) == Some(ids[k]) && ',' !in shown[k] && shown[k] != ""
  {
    var shown := ShowAll(ids);
    forall k | 0 <= k < |ids|
      ensures ParseInt(shown[k]) == Some(ids[k]) && ',' !in shown[k] && shown[k] != ""
    {
      ParseShow(ids[k]);
      assert forall i :: 0 <= i < |shown[k]| ==> shown[k][i] != ',';
    }
  }

  lemma ParsesBack(pieces: seq<string>, ids: seq<int>)
    requires |pieces| == |ids|
    requires forall k :: 0 <= k < |ids| ==> ParseInt(pieces[k]) == Some(ids[k])
    ensures ParseAll(pieces) == Some(ids)
  {
    var r := ParseAll(pieces);
    assert r.Some?;
    assert r.value == ids;
  }
}

=== FILE: text.dfy ===
/** The pieces of Python's `str` behaviour the bot relies on, stated over
    `string` (a sequence of Unicode scalar values, as a Python `str` is a
    sequence of code points): whitespace, stripping, splitting, joining,
    replacing, lower-casing and the character classes used by the regular
    expressions of the post formatter. */
module Text {

  /** `str.isspace()`; the same set is used by `str.split()`, `str.strip()` and
      the regular-expression class `\s` on `str` patterns. */
  predicate IsSpace(c: char) {
    c == ' ' || ('\t' <= c <= '\r') || ('\U{1C}' <= c <= '\U{1F}')
    || c == '\U{85}' || c == '\U{A0}' || c == '\U{1680}'
    || ('\U{2000}' <= c <= '\U{200A}') || c == '\U{2028}' || c == '\U{2029}'
    || c == '\U{202F}' || c == '\U{205F}' || c == '\U{3000}'
  }

  predicate IsDigit(c: char) {
    '0' <= c <= '9'
  }

  /** `str.isalpha()` restricted to the scripts the bot's texts use: ASCII,
      the Latin-1 and Latin Extended-A letters, and the Cyrillic block
      (U+0400..U+04FF without its signs and combining marks). */
  predicate IsAlpha(c: char) {
    ('a' <= c <= 'z') || ('A' <= c <= 'Z')
    || c == '\U{AA}' || c == '\U{B5}' || c == '\U{BA}'
    || ('\U{C0}' <= c <= '\U{D6}') || ('\U{D8}' <= c <= '\U{F6}') || ('\U{F8}' <= c <= '\U{17F}')
    || ('\U{400}' <= c <= '\U{481}') || ('\U{48A}' <= c <= '\U{4FF}')
  }

  /** The regular-expression class `\w`: letters, digits and the underscore. */
  predicate IsWordChar(c: char) {
    IsAlpha(c) || IsDigit(c) || c == '_'
  }

  /** `str.lower()` on one character, for ASCII, Latin-1 and the Russian
      alphabet (including Ё and the other U+0400..U+040F capitals). */
  function LowerChar(c: char): (r: char)
    ensures IsAlpha(c) <==> IsAlpha(r)
    ensures IsSpace(c) <==> IsSpace(r)
  {
    if 'A' <= c <= 'Z' then (c as int + 32) as char
    else if ('\U{C0}' <= c <= '\U{DE}') && c != '\U{D7}' then (c as int + 32) as char
    else if '\U{410}' <= c <= '\U{42F}' then (c as int + 32) as char
    else if '\U{400}' <= c <= '\U{40F}' then (c as int + 80) as char
    else c
  }

  function Lower(s: string): (r: string)
    ensures |r| == |s|
    ensures forall i :: 0 <= i < |s| ==> r[i] == LowerChar(s[i])
  {
    if |s| == 0 then "" else [LowerChar(s[0])] + Lower(s[1..])
  }

  /** `s.startswith(p)`. */
  predicate StartsWith(s: string, p: string) {
    |p| <= |s| && s[..|p|] == p
  }

  /** `sub in s`. */
  predicate Contains(s: string, sub: string)
    decreases |s|
  {
    StartsWith(s, sub) || (|s| > 0 && Contains(s[1..], sub))
  }

  /** `s[:n]`. */
  function Take(s: string, n: nat): (r: string)
    ensures |r| <= n && |r| <= |s|
    ensures |r| == n || |r| == |s|
    ensures r == s[..|r|]
  {
    if |s| <= n then s else s[..n]
  }

  // ---------------------------------------------------------------------------
  // Stripping

  /** The number of leading characters of `s` that satisfy `p`. */
  function LeadingCount(s: string, p: char -> bool): (n: nat)
    ensures n <= |s|
    ensures forall i :: 0 <= i < n ==> p(s[i])
    ensures n < |s| ==> !p(s[n])
  {
    if |s| > 0 && p(s[0]) then 1 + LeadingCount(s[1..], p) else 0
  }

  /** The number of trailing characters of `s` that satisfy `p`. */
  function TrailingCount(s: string, p: char -> bool): (n: nat)
    ensures n <= |s|
    ensures forall i :: |s| - n <= i < |s| ==> p(s[i])
    ensures n < |s| ==> !p(s[|s| - n - 1])
  {
    if |s| > 0 && p(s[|s| - 1]) then 1 + TrailingCount(s[..|s| - 1], p) else 0
  }

  /** `s.strip(chars)`, where `p` tells which characters belong to `chars`:
      the infix left after dropping the leading and the trailing characters
      of `chars`. */
  function Trim(s: string, p: char -> bool): (r: string)
    ensures LeadingCount(s, p) + |r| <= |s|
    ensures r == s[LeadingCount(s, p)..LeadingCount(s, p) + |r|]
    ensures |r| > 0 ==> !p(r[0]) && !p(r[|r| - 1])
    ensures |r| == 0 <==> forall i :: 0 <= i < |s| ==> p(s[i])
  {
    var a := LeadingCount(s, p);
    var t := s[a..];
    t[..|t| - TrailingCount(t, p)]
  }

  /** `s.strip()`. */
  function Strip(s: string): string {
    Trim(s, IsSpace)
  }

  /** A string that neither starts nor ends with a character of `p` is its own
      `strip`. */
  lemma {:induction false} TrimFixed(s: string, p: char -> bool)
    requires |s| > 0 ==> !p(s[0]) && !p(s[|s| - 1])
    ensures Trim(s, p) == s
  {
    assert LeadingCount(s, p) == 0;
    assert TrailingCount(s, p) == 0;
  }

  /** Stripping twice is stripping once. */
  lemma TrimIdempotent(s: string, p: char -> bool)
    ensures Trim(Trim(s, p), p) == Trim(s, p)
  {
    TrimFixed(Trim(s, p), p);
  }

  // ---------------------------------------------------------------------------
  // Splitting and joining

  /** `s.split(sep)` for a non-empty separator: the pieces between the
      non-overlapping occurrences of `sep`, found left to right. */
  function Split(s: string, sep: string): (parts: seq<string>)
    requires |sep| > 0
    ensures |parts| >= 1
    ensures |sep| == 1 ==> forall k :: 0 <= k < |parts| ==> sep[0] !in parts[k]
    decreases |s|
  {
    if |s| < |sep| then [s]
    else if s[..|sep|] == sep then [""] + Split(s[|sep|..], sep)
    else
      var rest := Split(s[1..], sep);
      [[s[0]] + rest[0]] + rest[1..]
  }

  /** `[x for x in parts if x]`. */
  function NonEmpty(parts: seq<string>): (r: seq<string>)
    ensures |r| <= |parts|
    ensures forall k :: 0 <= k < |r| ==> r[k] != ""
    ensures (forall k :: 0 <= k < |parts| ==> parts[k] != "") ==> r == parts
    ensures forall k :: 0 <= k < |r| ==> r[k] in parts
    ensures |parts| > 0 && parts[0] != "" ==> |r| > 0 && r[0] == parts[0]
  {
    if |parts| == 0 then []
    else if parts[0] == "" then NonEmpty(parts[1..])
    else [parts[0]] + NonEmpty(parts[1..])
  }

  /** `sep.join(parts)`. */
  function Join(parts: seq<string>, sep: string): string
    decreases |parts|
  {
    if |parts| == 0 then ""
    else if |parts| == 1 then parts[0]
    else parts[0] + sep + Join(parts[1..], sep)
  }

  lemma JoinConsHead(a: string, x: string, tail: seq<string>, sep: string)
    ensures Join([a + x] + tail, sep) == a + Join([x] + tail, sep)
  {
    if |tail| > 0 {
      assert ([a + x] + tail)[1..] == tail;
      assert ([x] + tail)[1..] == tail;
    }
  }

  /** Joining the pieces of a split with the same separator gives back the
      original string. */
  lemma {:induction false} JoinSplit(s: string, sep: string)
    requires |sep| > 0
    ensures Join(Split(s, sep), sep) == s
    decreases |s|
  {
    if |s| < |sep| {
    } else if s[..|sep|] == sep {
      var rest := Split(s[|sep|..], sep);
      JoinSplit(s[|sep|..], sep);
      assert Split(s, sep) == [""] + rest;
      assert ([""] + rest)[1..] == rest;
      assert s == sep + s[|sep|..];
    } else {
      var rest := Split(s[1..], sep);
      JoinSplit(s[1..], sep);
      assert rest == [rest[0]] + rest[1..];
      JoinConsHead([s[0]], rest[0], rest[1..], sep);
      assert s == [s[0]] + s[1..];
    }
  }

  /** A string without the separator character splits into itself. */
  lemma {:induction false} SplitNoSep(a: string, c: char)
    requires c !in a
    ensures Split(a, [c]) == [a]
    decreases |a|
  {
    if |a| >= 1 {
      SplitNoSep(a[1..], c);
      assert [a[0]] + a[1..] == a;
    }
  }

  /** Splitting `a + c + t` at the first `c` when `a` has none. */
  lemma {:induction false} SplitAtFirst(a: string, c: char, t: string)
    requires c !in a
    ensures Split(a + [c] + t, [c]) == [a] + Split(t, [c])
    decreases |a|
  {
    var s := a + [c] + t;
    if |a| == 0 {
      assert s[..1] == [c];
      assert s[1..] == t;
    } else {
      assert a[0] in a;
      assert s[..1][0] == a[0];
      assert s[1..] == a[1..] + [c] + t;
      SplitAtFirst(a[1..], c, t);
      assert [a[0]] + a[1..] == a;
    }
  }

  /** Splitting a join at a character that no piece contains gives back the
      pieces. */
  lemma {:induction false} SplitJoin(parts: seq<string>, c: char)
    requires |parts| >= 1
    requires forall k :: 0 <= k < |parts| ==> c !in parts[k]
    ensures Split(Join(parts, [c]), [c]) == parts
    decreases |parts|
  {
    if |parts| == 1 {
      SplitNoSep(parts[0], c);
    } else {
      SplitJoin(parts[1..], c);
      SplitAtFirst(parts[0], c, Join(parts[1..], [c]));
      assert parts == [parts[0]] + parts[1..];
    }
  }

  /** Joining with a separator that contains no `c`, pieces that contain no
      `c`, gives a string without `c`. */
  lemma {:induction false} JoinAvoids(parts: seq<string>, sep: string, c: char)
    requires c !in sep
    requires forall k :: 0 <= k < |parts| ==> c !in parts[k]
    ensures c !in Join(parts, sep)
    decreases |parts|
  {
    if |parts| > 1 {
      JoinAvoids(parts[1..], sep, c);
    }
  }

  /** The first `k` pieces of a split, joined back, are a prefix of the
      original string. */
  lemma {:induction false} JoinSplitPrefix(s: string, sep: string, k: nat)
    requires |sep| > 0
    ensures var parts := Split(s, sep);
            var j := Join(parts[..if k < |parts| then k else |parts|], sep);
            |j| <= |s| && j == s[..|j|]
  {
    var parts := Split(s, sep);
    var n := if k < |parts| then k else |parts|;
    JoinSplit(s, sep);
    JoinPrefix(parts, n, sep);
  }

  /** The join of a prefix of the pieces is a prefix of the join. */
  lemma {:induction false} JoinPrefix(parts: seq<string>, n: nat, sep: string)
    requires n <= |parts|
    ensures var j := Join(parts[..n], sep);
            |j| <= |Join(parts, sep)| && j == Join(parts, sep)[..|j|]
    decreases n
  {
    if n == 0 {
    } else if n == 1 {
      if |parts| > 1 {
        assert Join(parts, sep) == parts[0] + (sep + Join(parts[1..], sep));
      }
    } else {
      JoinPrefix(parts[1..], n - 1, sep);
      assert parts[..n][1..] == parts[1..][..n - 1];
    }
  }

  /** Joining all pieces is joining the first `n`, the separator, and
      joining the rest. */
  lemma {:induction false} JoinSplitAt(parts: seq<string>, n: nat, sep: string)
    requires 0 < n < |parts|
    ensures Join(parts, sep) == Join(parts[..n], sep) + sep + Join(parts[n..], sep)
    decreases n
  {
    if n > 1 {
      JoinSplitAt(parts[1..], n - 1, sep);
      assert parts[..n][1..] == parts[1..][..n - 1];
      assert parts[1..][n - 1..] == parts[n..];
    }
  }

  // ---------------------------------------------------------------------------
  // Whitespace-separated tokens and replacement

  /** The leading run of characters that are not whitespace. */
  function NonSpaceRun(s: string): (r: nat)
    ensures r <= |s|
    ensures forall i :: 0 <= i < r ==> !IsSpace(s[i])
    ensures r < |s| ==> IsSpace(s[r])
  {
    if |s| == 0 || IsSpace(s[0]) then 0 else 1 + NonSpaceRun(s[1..])
  }

  /** `s.split()`: the maximal runs of non-whitespace characters, in order. */
  function Words(s: string): (ws: seq<string>)
    ensures forall k :: 0 <= k < |ws| ==> |ws[k]| > 0 && !IsSpace(ws[k][0])
    decreases |s|
  {
    var t := s[LeadingCount(s, IsSpace)..];
    if |t| == 0 then []
    else
      var n := NonSpaceRun(t);
      [t[..n]] + Words(t[n..])
  }

  /** `s.replace(pat, rep)`: every non-overlapping occurrence of `pat`, found
      left to right, replaced by `rep`. */
  function ReplaceAll(s: string, pat: string, rep: string): string
    requires |pat| > 0
    decreases |s|
  {
    if |s| < |pat| then s
    else if s[..|pat|] == pat then rep + ReplaceAll(s[|pat|..], pat, rep)
    else [s[0]] + ReplaceAll(s[1..], pat, rep)
  }
}

=== FILE: wrappers.dfy ===
/** Failure-carrying datatypes shared by the whole model: `Option` stands for
    Python's `None`-or-value, `Result` for a call that either returns a value or
    raises an exception that the caller catches. */
module Wrappers {

  datatype Option<+T> = None | Some(value: T) {

    /** The value inside `Some`, or `default` for `None`. */
    function GetOr(default: T): T {
      match this
      case Some(v) => v
      case None => default
    }
  }

  datatype Result<+T, +E> = Ok(value: T) | Err(error: E)
}
